=== FILE: README.md ===
# Hybrid legal-article search, modelled in Dafny

This project models the core of a retrieval pipeline for legal questions.
A question is answered by searching a vector index (Qdrant) and a lexical
index (Elasticsearch). The two candidate lists are merged and
deduplicated by article id (`aid`), and an external reranking service
orders the pool. Around that core sit the offline steps:

- flattening the legal corpus into one record per article;
- embedding the flattened corpus in resumable batches;
- preparing the records for the two indexes;
- combining JSON files;
- computing the training-set histogram of relevant-law counts;
- scoring a results file against the ground truth.

Every operation is a pure function over JSON values (`Json.Value`). Python
exceptions are modelled as `Result<_, PyError>` values, and an exception
the code catches becomes the value the `except` branch substitutes.

The modules follow the program's files:

| module | file | models |
|---|---|---|
| `QueryEscape` | query_escape.dfy | the lexical query sanitizer |
| `CandidateMerge` | candidate_merge.dfy | reshaping the backends' hits and the `aid`-keyed merge |
| `Reranker` | reranker.dfy | mapping the rerank answer back onto the pool |
| `HybridSearch` | hybrid_search.dfy | `process_query` and the thread-pool batch |
| `JinaClient` | jina_client.dfy | `embed`, `embed_by_batch`, `rerank` |
| `CorpusTransform` | corpus_transform.dfy | `flatten` |
| `EmbedCorpus` | embed_corpus.dfy | the embedding script |
| `QdrantUpload` | qdrant_upload.dfy | the points `Qdrant.bulk_upload` sends |
| `ElasticUpload` | elastic_upload.dfy | the documents `Elastic.bulk_upload` sends |
| `CombineJson` | combine_json.dfy | the combine rule |
| `Histogram` | histogram.dfy | the law-count histogram and `get_qids_with_law_counts` |
| `EvaluateResults` | evaluate_results.dfy | `detailed_match_info` |
| `Json`, `Outcome`, `Seqs`, `Picks` | json.dfy, outcome.dfy, seqs.dfy | JSON values, Python built-ins, sequence helpers |

Network calls are parameters:

- the embedding/rerank service is a `Transport`: a function from an endpoint path and a request body to `Some(response)`, or `None` when the call raises;
- the Qdrant search is a function from a query vector and a limit to a list of payloads, or `None`;
- the Elasticsearch search is a function from the escaped query text to the raw response, or `None`.

The completion order of the thread pool is a parameter too: any
permutation of the query indices.

### Behaviour worth noting

The model follows the code in each case:

- The merge puts the vector hits first and the lexical hits after them. For a repeated `aid`, the last record wins, at the position where that `aid` first occurred.
- A single malformed or out-of-range rerank item empties the whole rerank result, because the list comprehension raises and the `except` returns `[]`.
- A negative rerank index is not rejected: it counts from the end of the pool.
- A lexical hit missing `doc_id` or `law_id`, or a malformed lexical response, raises out of `process_query`, because that loop is outside any `try`.
- The batch results are appended in completion order and never sorted.

## Model

| member | source | states |
|---|---|---|
| QueryEscape.Escape | src/search_module/flow/hybrid_search.py:13-14 | the escaped query is one character longer per reserved character, and unchanged when there is none |
| QueryEscape.UnescapeEscape | src/search_module/flow/hybrid_search.py:13-14 | escaping loses nothing: reading the backslashes back gives the original query |
| QueryEscape.EscapeAppend | src/search_module/flow/hybrid_search.py:13-14 | escaping is a per-character substitution, so it distributes over concatenation |
| QueryEscape.EscapeAt | src/search_module/flow/hybrid_search.py:13-14 | each input position contributes exactly its own escaped form, in place |
| QueryEscape.EscapeExample | src/search_module/flow/hybrid_search.py:13-14 | `a+b-c` becomes `a\+b\-c` |
| CandidateMerge.VectorHits | src/search_module/flow/hybrid_search.py:49-56 | one hit per payload, in order, with the `aid` read by `get` (None when absent) |
| CandidateMerge.LexicalHit | src/search_module/flow/hybrid_search.py:69-75 | a source without `doc_id` or `law_id` raises KeyError naming the first missing key; otherwise `aid` is read by `get` |
| CandidateMerge.SourceHit | src/search_module/flow/hybrid_search.py:68-69 | a hit must be a dict holding a dict `_source`, else it raises |
| CandidateMerge.LexicalHits | src/search_module/flow/hybrid_search.py:68-75 | the loop succeeds iff every hit does, keeps order and length, and an error is some hit's error |
| CandidateMerge.Put | src/search_module/flow/hybrid_search.py:78 | a dict store by `aid`: a known key is replaced in place, a new key is appended, keys stay unique |
| CandidateMerge.Merge | src/search_module/flow/hybrid_search.py:78 | the pool has truthy, pairwise distinct `aid`s and is no longer than the hits |
| CandidateMerge.MergeSpec | src/search_module/flow/hybrid_search.py:78 | the pool holds only records with a truthy `aid` and, for every truthy `aid`, the last hit carrying it, ordered by the first occurrence of each `aid` |
| CandidateMerge.MergeMembers | src/search_module/flow/hybrid_search.py:78 | every pool record is a hit with a truthy `aid`, and an `aid` is in the pool iff it is truthy and some hit has it |
| CandidateMerge.MergeExample | src/search_module/flow/hybrid_search.py:78 | a vector hit and a lexical hit sharing `aid` 1 plus a lexical hit with `aid` 2 give two records, the lexical one winning for `aid` 1 |
| CandidateMerge.FirstIndex | src/search_module/flow/hybrid_search.py:78 | the first position of an `aid` among the hits, or the length when it does not occur |
| CandidateMerge.LastHitIsMember | src/search_module/flow/hybrid_search.py:78 | the last hit with an `aid` exists iff some hit has it, and it is one of the hits |
| Reranker.RankedAid | src/search_module/flow/hybrid_search.py:86-90 | a successful item always names the `aid` of some pool record |
| Reranker.RankedAids | src/search_module/flow/hybrid_search.py:86-90 | the comprehension succeeds iff every item does, and keeps the service's order and length |
| Reranker.RankedAidsInRange | src/search_module/flow/hybrid_search.py:86-90 | well-formed items with in-range indices give the named candidates' `aid`s in the service's order |
| Reranker.RankedAidsOutOfRange | src/search_module/flow/hybrid_search.py:86-90 | one index outside the pool makes the whole comprehension raise |
| Reranker.RankedAidNegative | src/search_module/flow/hybrid_search.py:87 | a negative index counts from the end of the pool |
| Reranker.RankedAidsExample | src/search_module/flow/hybrid_search.py:86-90 | indices 2 then 0 over three candidates give the third then the first `aid` |
| HybridSearch.VectorStage | src/search_module/flow/hybrid_search.py:38-56 | a failed embedding call and an answer with no vectors (where `[0]` raises inside the `try`) both leave no vector hits; otherwise the first vector is searched with limit 3 and a failed search counts as no hits |
| HybridSearch.ErrorAnswerLeavesNoVectorHits | src/search_module/flow/hybrid_search.py:39-47 | an HTTP error body such as `{"detail": "Unauthorized"}` makes `embed` return `[]`, and the caught `IndexError` leaves the vector stage empty |
| HybridSearch.HitList | src/search_module/flow/hybrid_search.py:68 | `response["hits"]["hits"]` is iterated; a missing key raises KeyError and a non-dict response raises TypeError |
| HybridSearch.LexicalStage | src/search_module/flow/hybrid_search.py:58-75 | a lexical search that raises gives no hits; a successful stage yields one hit per element of the response's hit list |
| HybridSearch.MergeChecked | src/search_module/flow/hybrid_search.py:78 | the merge raises TypeError iff some truthy `aid` is unhashable; otherwise the pool holds only records with a truthy `aid`, the last record per truthy `aid`, in the order of first occurrence, every such `aid` represented |
| HybridSearch.RerankStage | src/search_module/flow/hybrid_search.py:83-93 | a rerank call that raises leaves no aids, and every returned `aid` names a record of the pool |
| HybridSearch.ProcessQuery | src/search_module/flow/hybrid_search.py:32-96 | the result keeps the qid, a lexical-stage failure propagates, every returned `aid` is truthy and comes from a candidate, and with a non-empty pool the returned laws are exactly the rerank stage's answer |
| HybridSearch.VectorOutageIsEmpty | src/search_module/flow/hybrid_search.py:39-47 | a vector search that always raises gives the same answer as one that always returns no hits |
| HybridSearch.LexicalOutageIsEmpty | src/search_module/flow/hybrid_search.py:59-66 | a lexical search that raises counts as a response with no hits |
| HybridSearch.LexicalSeesEscapedText | src/search_module/flow/hybrid_search.py:59-63 | the lexical backend is only ever asked about the escaped query |
| HybridSearch.EmptyPoolSkipsRerank | src/search_module/flow/hybrid_search.py:80-81 | with no candidates the rerank service is not consulted and no aids are returned |
| HybridSearch.RerankFailOpen | src/search_module/flow/hybrid_search.py:84-93 | a failing rerank call still yields a result, with no aids |
| HybridSearch.RerankOrderKept | src/search_module/flow/hybrid_search.py:83-90 | a well-formed rerank answer is returned in the service's order, mapped to `aid`s |
| HybridSearch.RerankOutOfRangeEmpty | src/search_module/flow/hybrid_search.py:84-93 | one answer item whose index is outside the pool empties the stage's result, whatever the other items are |
| HybridSearch.AllOk | src/search_module/flow/hybrid_search.py:102-104 | all values iff every outcome succeeds; otherwise the error is that of the first failing outcome, all outcomes before it having succeeded |
| HybridSearch.RunBatch | src/search_module/flow/hybrid_search.py:99-104 | the results follow the completion order, and a failure is that of the first failing query in that order |
| HybridSearch.BatchOkIffAllOk | src/search_module/flow/hybrid_search.py:99-104 | whatever the completion order, the batch succeeds iff every query does |
| HybridSearch.BatchIsPermutation | src/search_module/flow/hybrid_search.py:99-104 | whatever the completion order, a successful batch means every query succeeded, and it holds the same multiset of results as the input-order results |
| HybridSearch.OrderCovers | src/search_module/flow/hybrid_search.py:102 | every submitted future completes once, so every query index occurs in the order |
| JinaClient.EmbedRequest | src/search_module/jina_client.py:30-36 | the body carries the texts as `input`, and `task` only when it is non-empty |
| JinaClient.ParseEmbedResponse | src/search_module/jina_client.py:39-42 | a missing `data` gives no embeddings, a data list gives its items' embeddings, and a non-dict body raises |
| JinaClient.EmbedResponseRoundTrip | src/search_module/jina_client.py:39-42 | a response whose `data` holds one `{"embedding": v}` per vector parses back to exactly those vectors, in order |
| JinaClient.MissingEmbeddingIsEmpty | src/search_module/jina_client.py:40-41 | a data item without `embedding` stands for the empty vector `[]` |
| JinaClient.Embed | src/search_module/jina_client.py:23-42 | a request that raises gives the service error, and no other failure does; a success means the service answered a dict |
| JinaClient.EmbedRoundTrip | src/search_module/jina_client.py:23-42 | a service answering the request for the texts with one vector each makes `embed` return those vectors |
| JinaClient.EmbedAll | src/search_module/jina_client.py:48-51 | a failure of batch embedding is the failure of one of the chunks' calls |
| JinaClient.Chunks | src/search_module/jina_client.py:49 | the chunks concatenate back to the input, each holds 1 to n items, and all but the last hold n |
| JinaClient.EmbedAllOk | src/search_module/jina_client.py:48-51 | batch embedding succeeds iff every chunk's call does |
| JinaClient.EmbedAllConcat | src/search_module/jina_client.py:48-51 | when every chunk succeeds, the result is the chunks' embeddings concatenated in order |
| JinaClient.EmbedAllPrefixErr | src/search_module/jina_client.py:49-51 | the first failing chunk ends batch embedding with its error |
| JinaClient.OneVectorPerText | src/search_module/jina_client.py:44-51 | if each call returns one vector per text, batching returns one vector per text overall |
| JinaClient.ServiceOneVectorPerText | src/search_module/jina_client.py:23-51 | a service that answers every request with one vector per text makes batching return one vector per text overall |
| JinaClient.EmbedAllLength | src/search_module/jina_client.py:48-51 | if each call returns one vector per text, the result is as long as all chunks together |
| JinaClient.EmbedChunks | src/search_module/jina_client.py:48-51 | the loop makes one call per chunk, in order, and stops at the first failing call |
| JinaClient.EmbedByBatch | src/search_module/jina_client.py:44-51 | the texts are sent in `batch_size` chunks that cover them exactly; no texts means no call |
| JinaClient.RerankRequest | src/search_module/jina_client.py:62-68 | the body carries the query, the documents and `top_n` |
| JinaClient.ParseRerankResponse | src/search_module/jina_client.py:70-73 | the `results` list is returned verbatim and in order; missing `results` gives none; a non-dict body raises |
| JinaClient.Rerank | src/search_module/jina_client.py:53-73 | a failed request raises the service error; a success means the service answered a dict |
| JinaClient.RerankRoundTrip | src/search_module/jina_client.py:53-73 | an answer `{"results": items}` is returned verbatim, in the service's order |
| CorpusTransform.ArticleRecord | submodules/data-process-module/src/data_process_module/corpus_transform.py:5-12 | a record exists iff the article has `aid` and `content_Article` and the document has `law_id` and `id`; the record carries exactly those four values |
| CorpusTransform.ArticleRecords | submodules/data-process-module/src/data_process_module/corpus_transform.py:4-12 | one record per article, in order, built iff every article yields one; a failure is some article's failure |
| CorpusTransform.DocRecords | submodules/data-process-module/src/data_process_module/corpus_transform.py:4-12 | a document flattens iff it is well formed, giving one record per article with the article's and the document's fields |
| CorpusTransform.Flatten | submodules/data-process-module/src/data_process_module/corpus_transform.py:1-12 | every record has exactly the keys `aid`, `content_Article`, `law_id`, `doc_id` |
| CorpusTransform.FlattenOk | submodules/data-process-module/src/data_process_module/corpus_transform.py:1-12 | flattening succeeds iff every document is well formed |
| CorpusTransform.FlattenIsConcat | submodules/data-process-module/src/data_process_module/corpus_transform.py:1-12 | the result is the documents' record lists concatenated in input order |
| CorpusTransform.FlattenAppend | submodules/data-process-module/src/data_process_module/corpus_transform.py:1-12 | flattening distributes over concatenation of corpora, and a failure in the first part is reported first |
| CorpusTransform.FlattenLength | submodules/data-process-module/src/data_process_module/corpus_transform.py:1-12 | the number of records is the total number of articles |
| CorpusTransform.FlattenAt | submodules/data-process-module/src/data_process_module/corpus_transform.py:1-12 | the record of article j of document d sits after the earlier documents' records and carries that article's and that document's fields |
| CorpusTransform.EmptyDocContributesNothing | submodules/data-process-module/src/data_process_module/corpus_transform.py:3-4 | a document with no articles contributes nothing, even without `law_id` or `id` |
| EmbedCorpus.StoredAid | src/search_module/flow/embed_corpus.py:23 | a stored dict with a hashable `aid` contributes it, one without `aid` contributes nothing |
| EmbedCorpus.EmbeddedAids | src/search_module/flow/embed_corpus.py:18-23 | the set holds exactly the `aid`s of the stored records, and building it fails iff some record fails |
| EmbedCorpus.ToEmbed | src/search_module/flow/embed_corpus.py:27 | the filter keeps at most every record and can only fail with TypeError |
| EmbedCorpus.ToEmbedMembers | src/search_module/flow/embed_corpus.py:27 | the filter fails iff some `aid` is unhashable; a record is kept iff it is in the input and its `aid` is not done |
| EmbedCorpus.ToEmbedAppend | src/search_module/flow/embed_corpus.py:27 | the filter keeps order: it distributes over concatenation |
| EmbedCorpus.ToEmbedNothingDone | src/search_module/flow/embed_corpus.py:27 | with nothing embedded yet, every record is embedded |
| EmbedCorpus.RangesTile | src/search_module/flow/embed_corpus.py:32-34 | the batch ranges start at the given offset, are contiguous, hold at most 32 records and end at the total |
| EmbedCorpus.RangesAreChunks | src/search_module/flow/embed_corpus.py:32-34 | the ranges cut the records into exactly the 32-record chunks of `embed_by_batch`, in order |
| EmbedCorpus.EmbedFromIsBatchesOver | src/search_module/flow/embed_corpus.py:32-44 | the loop embeds exactly the slices the ranges describe, in order, so the tiling and chunking facts hold for its batches |
| EmbedCorpus.Contents | src/search_module/flow/embed_corpus.py:37 | the texts are the records' `content_Article`, in order; a missing one raises KeyError |
| EmbedCorpus.Assign | src/search_module/flow/embed_corpus.py:42-44 | record i gets vector i under `embedding` and keeps its other keys; too few vectors raise IndexError |
| EmbedCorpus.OneCallPerBatch | src/search_module/flow/embed_corpus.py:38 | a batch of at most 32 texts makes a single embedding call |
| EmbedCorpus.FlattenedBatch | src/search_module/flow/embed_corpus.py:34-44 | a batch of flattened records fails only in the embedding call or for lack of vectors |
| EmbedCorpus.EmbedBatch | src/search_module/flow/embed_corpus.py:34-44 | an empty batch raises IndexError; a batch that goes through yields one record per input record, each the record plus an `embedding` |
| EmbedCorpus.EmbedFrom | src/search_module/flow/embed_corpus.py:32-44 | a successful loop yields one record per remaining record; a failure is the failure of the batch starting at some remaining position |
| EmbedCorpus.EmbedNew | src/search_module/flow/embed_corpus.py:32-50 | the loop yields the batches' records in order and writes progress exactly at the checkpoint positions, or a prefix of them when a batch fails |
| EmbedCorpus.SavePointsSound | src/search_module/flow/embed_corpus.py:47 | progress is only written at multiples of 1024 or at the total, in increasing order |
| EmbedCorpus.SavePointsComplete | src/search_module/flow/embed_corpus.py:47 | progress is written at every multiple of 1024 up to the total and at the total |
| EmbedCorpus.EmbedFromRecords | src/search_module/flow/embed_corpus.py:32-44 | the output holds every remaining record, in order, each with its embedding added |
| EmbedCorpus.EmbedCorpusRun | src/search_module/flow/embed_corpus.py:7-54 | a successful run outputs only embedded flattened records whose `aid` was not already embedded, and every such record is output; progress is written at exactly the checkpoint positions of the records left to embed, or at a prefix of them when a batch fails |
| EmbedCorpus.FreshRecordsEmbedded | src/search_module/flow/embed_corpus.py:26-44 | every flattened record whose `aid` is not already embedded ends up in the output with its embedding |
| QdrantUpload.ToPoint | src/search_module/db/qdrant.py:37-44 | a point is built iff `aid` is present and not None; its payload is the datapoint minus `embedding`, its vector the embedding or `[]`; a non-dict raises |
| QdrantUpload.BuildPoints | src/search_module/db/qdrant.py:35-44 | the loop fails iff some datapoint is not a dict; every point has a non-None id that equals its payload's `aid` and has no embedding in the payload |
| QdrantUpload.Kept | src/search_module/db/qdrant.py:41-43 | the datapoints that have an id, in order |
| QdrantUpload.PointsFollowKept | src/search_module/db/qdrant.py:36-44 | point j is built from the j-th datapoint that has an id |
| QdrantUpload.PointRestoresDatapoint | src/search_module/db/qdrant.py:38-39 | putting the vector back under `embedding` restores the original datapoint |
| QdrantUpload.BuildPointsAppend | src/search_module/db/qdrant.py:36-44 | the points of two datapoint lists are the first's points then the second's |
| QdrantUpload.NoneSkippedZeroKept | src/search_module/db/qdrant.py:41-43 | an `aid` of None is skipped while the falsy `aid` 0 is kept |
| ElasticUpload.StripOne | src/search_module/db/elastic.py:71-75 | a dict loses exactly its `embedding`; a non-dict passes unchanged unless the `in` test holds (AttributeError) or cannot be made (TypeError) |
| ElasticUpload.BulkData | src/search_module/db/elastic.py:70-75 | one document per datapoint, in order; the loop fails iff some datapoint does |
| ElasticUpload.DictsAreStripped | src/search_module/db/elastic.py:70-75 | a list of dicts is always accepted and no document keeps an embedding |
| ElasticUpload.StripIdempotent | src/search_module/db/elastic.py:70-75 | stripping the stripped documents changes nothing |
| ElasticUpload.NoEmbeddingPassesThrough | src/search_module/db/elastic.py:74-75 | a dict without `embedding` is sent unchanged |
| ElasticUpload.SameRecordAsQdrantPayload | src/search_module/db/elastic.py:72-73 | for a dict with an id, the lexical document equals the vector point's payload |
| ElasticUpload.ListWithEmbeddingRaises | src/search_module/db/elastic.py:72-73 | a list holding the string "embedding" passes the `in` test and then raises |
| CombineJson.Combine | src/search_module/flow/combine_json.py:12-17 | two lists concatenate and two dicts merge with the second's values winning; any other pair raises ValueError |
| CombineJson.CombineAssociative | src/search_module/flow/combine_json.py:12-17 | combining three files gives the same document however the combines are grouped |
| CombineJson.CombineEmpty | src/search_module/flow/combine_json.py:12-17 | an empty list or dict is an identity on either side |
| CombineJson.CombineAgainObject | src/search_module/flow/combine_json.py:14-15 | combining the second dict in again changes nothing |
| CombineJson.CombineSelf | src/search_module/flow/combine_json.py:12-15 | a list combined with itself doubles, a dict combined with itself is itself |
| Histogram.LawCount | src/search_module/flow/calculate_histogram_train.py:19 | a missing `relevant_laws` counts 0, a list counts its length, and a non-dict raises AttributeError |
| Histogram.LawCounts | src/search_module/flow/calculate_histogram_train.py:19 | one count per item, in order; fails iff some item's count fails |
| Histogram.TallyIsMultiset | src/search_module/flow/calculate_histogram_train.py:20 | the counter holds exactly the values that occur, each with its number of occurrences |
| Histogram.HistogramOf | src/search_module/flow/calculate_histogram_train.py:19-21 | the keys are non-negative counts with positive frequencies; a failure comes from some item |
| Histogram.HistogramSum | src/search_module/flow/calculate_histogram_train.py:19-21 | the frequencies sum to the number of questions |
| Histogram.HistogramEntry | src/search_module/flow/calculate_histogram_train.py:19-21 | a count is a key iff some question has it, and its frequency is the number of questions that do |
| Histogram.MissingLawsCountAsZero | src/search_module/flow/calculate_histogram_train.py:19 | a question without `relevant_laws` is counted under 0 |
| Histogram.QidsWithLawCounts | src/search_module/flow/calculate_histogram_train.py:62-67 | the result has exactly the requested counts as keys |
| Histogram.QidsAreGrouped | src/search_module/flow/calculate_histogram_train.py:62-67 | each requested count maps to the qids of the items with that count, in order; only those items need a `qid` |
| Histogram.QidsOkWhen | src/search_module/flow/calculate_histogram_train.py:63-66 | the grouping succeeds whenever every count can be taken and every requested item has a `qid` |
| Histogram.QidsMatchHistogram | src/search_module/flow/calculate_histogram_train.py:19-21 | each qid list is as long as the histogram's frequency for its count, or empty when the count never occurs |
| Histogram.QidsCount | src/search_module/flow/calculate_histogram_train.py:63-66 | the qid list of a count is as long as that count's number of occurrences |
| EvaluateResults.TruthEntry | src/search_module/flow/evaluate_results.py:25 | an entry gives its qid and the set of its laws iff it is a dict with both keys, a list of hashable laws and a hashable qid |
| EvaluateResults.GroundTruth | src/search_module/flow/evaluate_results.py:25 | the dict is built iff every entry is valid |
| EvaluateResults.GroundTruthKeys | src/search_module/flow/evaluate_results.py:25 | the ground truth knows exactly the qids of its entries |
| EvaluateResults.GroundTruthLastWins | src/search_module/flow/evaluate_results.py:25 | each qid maps to the laws of the last entry carrying it |
| EvaluateResults.MatchOne | src/search_module/flow/evaluate_results.py:28-39 | a non-dict result raises TypeError; an entry keeps the result's qid, counts the predicted set, the ground-truth set (empty for an unknown qid) and their intersection, so correct is at most both totals |
| EvaluateResults.MatchOneOk | src/search_module/flow/evaluate_results.py:29-31 | a result is scored iff it is a dict with a hashable `qid` and a law list `set` accepts |
| EvaluateResults.MatchAll | src/search_module/flow/evaluate_results.py:28-39 | one entry per result, in order; fails iff some result fails |
| EvaluateResults.DetailedMatchInfo | src/search_module/flow/evaluate_results.py:16-41 | one entry per result carrying that result's qid, iff the ground truth and every result are valid |
| EvaluateResults.PerfectScores | src/search_module/flow/evaluate_results.py:30-38 | correct equals retrieved iff every retrieved law is relevant, and equals relevant iff every relevant law was retrieved |
| EvaluateResults.UnknownQidScoresZero | src/search_module/flow/evaluate_results.py:31 | a qid absent from the ground truth has 0 relevant and 0 correct |
| EvaluateResults.MissingLawsRetrieveNothing | src/search_module/flow/evaluate_results.py:30 | a result without `relevant_laws` retrieves 0 |
| EvaluateResults.DuplicatesCountOnce | src/search_module/flow/evaluate_results.py:30 | a law listed twice is retrieved once |
| EvaluateResults.MatchAllAppend | src/search_module/flow/evaluate_results.py:28-39 | each result is scored on its own: scoring `a + b` gives a's entries then b's |

## Left out

- I/O: reading and writing files, `json.load`/`json.dump`, logging and `print` are not modelled. Each operation takes the loaded JSON and returns what would be written. The progress messages of the embedding script are modelled only through the `aid` subscripts they perform.
- Network: the HTTP calls to the embedding and reranking service, the Qdrant and Elasticsearch clients, and `upsert`/`helpers.bulk` are parameters or left out. Any exception they raise, including JSON decoding of the response, is one `ServiceError`/`None`. The URL joining, headers and API key are not modelled.
- Concurrency: the thread pool is reduced to a completion order (any permutation of the queries). Timing and interleaving are not modelled; `process_query` has no shared mutable state.
- The query file, the 50-query cut and the module-level client construction in hybrid_search.py are not modelled. A query is its `qid` and its `question` typed as a string.
- Floating point: `calculate_metrics` (precision, recall, F2) and `plot_histogram` are not modelled. Embedding vectors and scores are opaque JSON values.
- Python key equality: `1 == 1.0 == True` as dict and set keys is not modelled, so `Int(1)`, `Float(1.0)` and `Bool(true)` are different keys. Dict key insertion order is not modelled either, except in the merge, where it decides the pool's order and is modelled as a sequence.
- `int()` on strings: surrounding whitespace, digit-group underscores and non-ASCII digits are not accepted by the model's parser. Only an optional sign followed by ASCII digits is.
- Histogram.HistogramOf: the loaded file is taken to be a list. Iterating over a top-level dict or string is not modelled. The same holds for `EvaluateResults.DetailedMatchInfo`, `QdrantUpload.BuildPoints`, `ElasticUpload.BulkData` and `EmbedCorpus.EmbeddedAids`.
- CorpusTransform.Flatten: the corpus is taken to be a list of JSON values. Iterating over a top-level dict or string is not modelled.
- JinaClient.EmbedByBatch: `batch_size` is a natural number. The ValueError `chunked` raises for a negative size is not modelled.
- JinaClient.ParseRerankResponse: a non-empty dict under `results` is modelled as raising TypeError. The source would iterate its keys, whose order the model does not represent.
- QdrantUpload.BuildPoints: the validation `PointStruct` performs on ids and vectors (ids must be unsigned integers or UUID strings) belongs to the client library and is not modelled.
- CandidateMerge.VectorHits: a Qdrant hit is its payload as a dict. Search scores and a `None` payload are not modelled.
- EvaluateResults.DetailedMatchInfo: `load_json`'s fallback to `[]` on a missing or unparsable file is I/O and not modelled. The loaded lists are inputs.
- Python's in-place mutation in the embedding script (the flattened records gain `embedding`) is modelled as new records. Nothing reads the old ones afterwards.

=== FILE: candidate_merge.dfy ===
/** The candidate pool of one query: hits from the vector backend and the
    lexical backend reshaped to a common record, then deduplicated by `aid`
    with a dict comprehension keyed on the article id. */
module CandidateMerge {
  import opened Outcome
  import opened Json

  /** A backend hit after reshaping: the four fields the pipeline keeps. */
  datatype Hit = Hit(docId: Value, lawId: Value, aid: Value, content: Value)

  /** A vector-backend hit: every field is read with `payload.get`, so a
      missing field becomes `None` and nothing can fail. */
  function VectorHit(payload: Dict): Hit {
    Hit(Get(payload, "doc_id"), Get(payload, "law_id"), Get(payload, "aid"), Get(payload, "content_Article"))
  }

  function VectorHits(payloads: seq<Dict>): (hits: seq<Hit>)
    ensures |hits| == |payloads|
    ensures forall k :: 0 <= k < |payloads| ==> hits[k].aid == Get(payloads[k], "aid")
  {
    seq(|payloads|, k requires 0 <= k < |payloads| => VectorHit(payloads[k]))
  }

  /** A lexical-backend hit: `doc_id` and `law_id` are subscripted (a
      missing one raises `KeyError`, `doc_id` first), `aid` and
      `content_Article` are read with `get`. */
  function LexicalHit(source: Dict): (r: Result<Hit, PyError>)
    ensures r.Ok? <==> "doc_id" in source && "law_id" in source
    ensures r.Err? ==> r.error == KeyError(if "doc_id" !in source then "doc_id" else "law_id")
    ensures r.Ok? ==> r.value.aid == Get(source, "aid") && r.value.docId == source["doc_id"]
  {
    var docId :- Index(source, "doc_id");
    var lawId :- Index(source, "law_id");
    Ok(Hit(docId, lawId, Get(source, "aid"), Get(source, "content_Article")))
  }

  /** One element of the lexical backend's `hits` list: `hit["_source"]`
      must be a dict holding the record. Subscripting anything but a dict
      raises `TypeError`. */
  function SourceHit(hit: Value): (r: Result<Hit, PyError>)
    ensures r.Ok? <==> hit.Object? && "_source" in hit.fields && hit.fields["_source"].Object?
                       && LexicalHit(hit.fields["_source"].fields).Ok?
    ensures r.Ok? ==> r == LexicalHit(hit.fields["_source"].fields)
  {
    if !hit.Object? then Err(TypeError)
    else
      var source :- Index(hit.fields, "_source");
      if !source.Object? then Err(TypeError)
      else LexicalHit(source.fields)
  }

  /** The loop over the lexical hits; the first malformed hit raises out of
      the loop. */
  function LexicalHits(hits: seq<Value>): (r: Result<seq<Hit>, PyError>)
    ensures r.Ok? <==> forall k :: 0 <= k < |hits| ==> SourceHit(hits[k]).Ok?
    ensures r.Ok? ==> |r.value| == |hits|
    ensures r.Ok? ==> forall k :: 0 <= k < |hits| ==> r.value[k] == SourceHit(hits[k]).value
    ensures r.Err? ==> exists k :: 0 <= k < |hits| && SourceHit(hits[k]) == Err(r.error)
  {
    if |hits| == 0 then Ok([])
    else
      var h :- SourceHit(hits[0]);
      var rest :- LexicalHits(hits[1..]);
      assert forall k :: 1 <= k < |hits| ==> hits[k] == hits[1..][k - 1];
      Ok([h] + rest)
  }

  predicate HasAid(d: seq<Hit>, a: Value) {
    exists i :: 0 <= i < |d| && d[i].aid == a
  }

  /** At most one record per `aid`: the keys of a dict are unique. */
  ghost predicate DistinctAids(d: seq<Hit>) {
    forall i, j :: 0 <= i < j < |d| ==> d[i].aid != d[j].aid
  }

  /** `d[h.aid] = h` on an insertion-ordered dict whose values are keyed by
      their own `aid`: an existing key keeps its position and takes the new
      record, a new key goes at the end. */
  function Put(d: seq<Hit>, h: Hit): (r: seq<Hit>)
    ensures |r| == if HasAid(d, h.aid) then |d| else |d| + 1
    ensures !HasAid(d, h.aid) ==> r == d + [h]
    ensures DistinctAids(d) ==> forall i :: 0 <= i < |d| ==> r[i] == if d[i].aid == h.aid then h else d[i]
    ensures DistinctAids(d) ==> DistinctAids(r)
  {
    if |d| == 0 then [h]
    else if d[0].aid == h.aid then [h] + d[1..]
    else
      var rest := Put(d[1..], h);
      assert HasAid(d, h.aid) <==> HasAid(d[1..], h.aid) by {
        if HasAid(d, h.aid) {
          var i :| 0 <= i < |d| && d[i].aid == h.aid;
          assert d[1..][i - 1].aid == h.aid;
        }
        if HasAid(d[1..], h.aid) {
          var i :| 0 <= i < |d[1..]| && d[1..][i].aid == h.aid;
          assert d[i + 1].aid == h.aid;
        }
      }
      [d[0]] + rest
  }

  /** `{item["aid"]: item for item in hits if item.get("aid")}.values()`:
      the comprehension inserts the hits one after another, skipping those
      whose `aid` is falsy. */
  function Merge(hits: seq<Hit>): (pool: seq<Hit>)
    ensures forall i :: 0 <= i < |pool| ==> Truthy(pool[i].aid)
    ensures DistinctAids(pool)
    ensures |pool| <= |hits|
  {
    if |hits| == 0 then []
    else
      var pool := Merge(hits[..|hits| - 1]);
      var h := hits[|hits| - 1];
      if Truthy(h.aid) then Put(pool, h) else pool
  }

  /** The last hit carrying `aid == a`, if any. */
  function LastHit(hits: seq<Hit>, a: Value): Option<Hit> {
    if |hits| == 0 then None
    else if hits[|hits| - 1].aid == a then Some(hits[|hits| - 1])
    else LastHit(hits[..|hits| - 1], a)
  }

  /** The position of the first hit carrying `aid == a`, or `|hits|` if none does. */
  function FirstIndex(hits: seq<Hit>, a: Value): (k: nat)
    ensures k <= |hits|
    ensures k < |hits| <==> HasAid(hits, a)
    ensures k < |hits| ==> hits[k].aid == a
    ensures forall j :: 0 <= j < k && j < |hits| ==> hits[j].aid != a
  {
    if |hits| == 0 then 0
    else if hits[0].aid == a then 0
    else
      var k := FirstIndex(hits[1..], a);
      assert forall j :: 1 <= j < |hits| ==> hits[j] == hits[1..][j - 1];
      assert HasAid(hits, a) ==> HasAid(hits[1..], a) by {
        if HasAid(hits, a) {
          var i :| 0 <= i < |hits| && hits[i].aid == a;
          assert hits[1..][i - 1].aid == a;
        }
      }
      1 + k
  }

  lemma LastHitIsMember(hits: seq<Hit>, a: Value)
    ensures LastHit(hits, a).Some? <==> HasAid(hits, a)
    ensures LastHit(hits, a).Some? ==> LastHit(hits, a).value.aid == a && LastHit(hits, a).value in hits
  {
    if |hits| > 0 && hits[|hits| - 1].aid != a {
      var p := hits[..|hits| - 1];
      LastHitIsMember(p, a);
      if HasAid(hits, a) {
        var i :| 0 <= i < |hits| && hits[i].aid == a;
        assert p[i].aid == a;
      }
      if HasAid(p, a) {
        var i :| 0 <= i < |p| && p[i].aid == a;
        assert hits[i].aid == a;
      }
    }
  }

  lemma FirstIndexSnoc(hits: seq<Hit>, h: Hit, a: Value)
    ensures FirstIndex(hits + [h], a) ==
      if HasAid(hits, a) then FirstIndex(hits, a) else if h.aid == a then |hits| else |hits| + 1
  {
    var k := FirstIndex(hits + [h], a);
    var s := hits + [h];
    if HasAid(hits, a) {
      var f := FirstIndex(hits, a);
      assert s[f].aid == a;
      assert HasAid(s, a);
    } else if h.aid == a {
      assert s[|hits|].aid == a;
      assert forall j :: 0 <= j < |hits| ==> s[j].aid != a;
    }
  }

  /** What the comprehension keeps for one step of the insertion: only
      records with a truthy `aid`, the last hit for each such `aid`, every
      such `aid` represented, in order of first occurrence. */
  ghost predicate PoolOf(hits: seq<Hit>, pool: seq<Hit>) {
    && (forall i :: 0 <= i < |pool| ==> Truthy(pool[i].aid))
    && (forall i :: 0 <= i < |pool| ==> LastHit(hits, pool[i].aid) == Some(pool[i]))
    && (forall j :: 0 <= j < |hits| && Truthy(hits[j].aid) ==> HasAid(pool, hits[j].aid))
    && (forall i, j :: 0 <= i < j < |pool| ==> FirstIndex(hits, pool[i].aid) < FirstIndex(hits, pool[j].aid))
  }

  /** The `aid`s already in the pool occur among the earlier hits, so a new
      hit does not move their first occurrence. */
  lemma PoolFirstIndices(hits: seq<Hit>, h: Hit, pool: seq<Hit>)
    requires forall i :: 0 <= i < |pool| ==> LastHit(hits, pool[i].aid) == Some(pool[i])
    ensures forall i :: 0 <= i < |pool| ==> FirstIndex(hits, pool[i].aid) < |hits|
    ensures forall i :: 0 <= i < |pool| ==> FirstIndex(hits + [h], pool[i].aid) == FirstIndex(hits, pool[i].aid)
  {
    forall i | 0 <= i < |pool|
      ensures FirstIndex(hits, pool[i].aid) < |hits|
      ensures FirstIndex(hits + [h], pool[i].aid) == FirstIndex(hits, pool[i].aid)
    {
      LastHitIsMember(hits, pool[i].aid);
      FirstIndexSnoc(hits, h, pool[i].aid);
    }
  }

  /** Insertion step for a hit whose `aid` is falsy: it is skipped. */
  lemma MergeStepSkip(hits: seq<Hit>, h: Hit, pool: seq<Hit>)
    requires PoolOf(hits, pool)
    requires !Truthy(h.aid)
    ensures PoolOf(hits + [h], pool)
  {
    var s := hits + [h];
    assert s[..|hits|] == hits;
    PoolFirstIndices(hits, h, pool);
    forall i | 0 <= i < |pool| ensures LastHit(s, pool[i].aid) == Some(pool[i]) {
      assert pool[i].aid != h.aid;
    }
    forall j | 0 <= j < |s| && Truthy(s[j].aid) ensures HasAid(pool, s[j].aid) {
      assert s[j] == hits[j];
    }
  }

  /** Insertion step for a hit whose `aid` is already a key: the record at
      that position is replaced. */
  lemma MergeStepReplace(hits: seq<Hit>, h: Hit, pool: seq<Hit>)
    requires PoolOf(hits, pool)
    requires DistinctAids(pool)
    requires Truthy(h.aid) && HasAid(pool, h.aid)
    ensures PoolOf(hits + [h], Put(pool, h))
  {
    var pool' := Put(pool, h);
    ReplaceKeepsPool(hits, h, pool, pool');
  }

  lemma ReplaceKeepsPool(hits: seq<Hit>, h: Hit, pool: seq<Hit>, pool': seq<Hit>)
    requires PoolOf(hits, pool)
    requires HasAid(pool, h.aid)
    requires Replaced(pool, h, pool')
    ensures PoolOf(hits + [h], pool')
  {
    assert forall i :: 0 <= i < |pool'| ==> pool'[i].aid == pool[i].aid;
    ReplaceLast(hits, h, pool, pool');
    ReplaceCovers(hits, h, pool, pool');
    ReplaceOrdered(hits, h, pool, pool');
  }

  /** `pool'` is `pool` with the record carrying `h`'s `aid` replaced by `h`. */
  ghost predicate Replaced(pool: seq<Hit>, h: Hit, pool': seq<Hit>) {
    && |pool'| == |pool|
    && forall i :: 0 <= i < |pool| ==> pool'[i] == if pool[i].aid == h.aid then h else pool[i]
  }

  lemma ReplaceLast(hits: seq<Hit>, h: Hit, pool: seq<Hit>, pool': seq<Hit>)
    requires PoolOf(hits, pool)
    requires Replaced(pool, h, pool')
    ensures forall i :: 0 <= i < |pool'| ==> LastHit(hits + [h], pool'[i].aid) == Some(pool'[i])
  {
    var s := hits + [h];
    assert s[..|hits|] == hits;
    forall i | 0 <= i < |pool'| ensures LastHit(s, pool'[i].aid) == Some(pool'[i]) {
      if pool[i].aid != h.aid {
        assert pool'[i] == pool[i];
      }
    }
  }

  lemma ReplaceCovers(hits: seq<Hit>, h: Hit, pool: seq<Hit>, pool': seq<Hit>)
    requires PoolOf(hits, pool)
    requires HasAid(pool, h.aid)
    requires Replaced(pool, h, pool')
    ensures forall j :: 0 <= j < |hits + [h]| && Truthy((hits + [h])[j].aid) ==> HasAid(pool', (hits + [h])[j].aid)
  {
    var s := hits + [h];
    var m :| 0 <= m < |pool| && pool[m].aid == h.aid;
    forall j | 0 <= j < |s| && Truthy(s[j].aid) ensures HasAid(pool', s[j].aid) {
      if j < |hits| {
        assert s[j] == hits[j];
        var i :| 0 <= i < |pool| && pool[i].aid == hits[j].aid;
        assert pool'[i].aid == s[j].aid;
      } else {
        assert pool'[m].aid == s[j].aid;
      }
    }
  }

  lemma ReplaceOrdered(hits: seq<Hit>, h: Hit, pool: seq<Hit>, pool': seq<Hit>)
    requires PoolOf(hits, pool)
    requires Replaced(pool, h, pool')
    ensures forall i, j :: 0 <= i < j < |pool'| ==>
      FirstIndex(hits + [h], pool'[i].aid) < FirstIndex(hits + [h], pool'[j].aid)
  {
    PoolFirstIndices(hits, h, pool);
    forall i, j | 0 <= i < j < |pool'|
      ensures FirstIndex(hits + [h], pool'[i].aid) < FirstIndex(hits + [h], pool'[j].aid)
    {
      assert pool'[i].aid == pool[i].aid && pool'[j].aid == pool[j].aid;
    }
  }

  /** Insertion step for a hit with a new truthy `aid`: it goes at the end. */
  lemma MergeStepAppend(hits: seq<Hit>, h: Hit, pool: seq<Hit>)
    requires PoolOf(hits, pool)
    requires Truthy(h.aid) && !HasAid(pool, h.aid)
    ensures PoolOf(hits + [h], Put(pool, h))
  {
    assert Put(pool, h) == pool + [h];
    AppendTruthy(h, pool);
    AppendLast(hits, h, pool);
    AppendCovers(hits, h, pool);
    AppendOrdered(hits, h, pool);
  }

  lemma AppendTruthy(h: Hit, pool: seq<Hit>)
    requires forall i :: 0 <= i < |pool| ==> Truthy(pool[i].aid)
    requires Truthy(h.aid)
    ensures forall i :: 0 <= i < |pool + [h]| ==> Truthy((pool + [h])[i].aid)
  {
    forall i | 0 <= i < |pool + [h]| ensures Truthy((pool + [h])[i].aid) {
      if i < |pool| {
        assert (pool + [h])[i] == pool[i];
      }
    }
  }

  lemma AppendLast(hits: seq<Hit>, h: Hit, pool: seq<Hit>)
    requires PoolOf(hits, pool)
    requires !HasAid(pool, h.aid)
    ensures forall i :: 0 <= i < |pool + [h]| ==> LastHit(hits + [h], (pool + [h])[i].aid) == Some((pool + [h])[i])
  {
    var s := hits + [h];
    var pool' := pool + [h];
    assert s[..|hits|] == hits;
    forall i | 0 <= i < |pool'| ensures LastHit(s, pool'[i].aid) == Some(pool'[i]) {
      if i < |pool| {
        assert pool'[i] == pool[i];
        assert pool[i].aid != h.aid;
      }
    }
  }

  lemma AppendCovers(hits: seq<Hit>, h: Hit, pool: seq<Hit>)
    requires PoolOf(hits, pool)
    ensures forall j :: 0 <= j < |hits + [h]| && Truthy((hits + [h])[j].aid) ==> HasAid(pool + [h], (hits + [h])[j].aid)
  {
    var s := hits + [h];
    var pool' := pool + [h];
    forall j | 0 <= j < |s| && Truthy(s[j].aid) ensures HasAid(pool', s[j].aid) {
      if j < |hits| {
        assert s[j] == hits[j];
        var i :| 0 <= i < |pool| && pool[i].aid == hits[j].aid;
        assert pool'[i].aid == s[j].aid;
      } else {
        assert pool'[|pool|].aid == s[j].aid;
      }
    }
  }

  lemma AppendOrdered(hits: seq<Hit>, h: Hit, pool: seq<Hit>)
    requires PoolOf(hits, pool)
    requires Truthy(h.aid) && !HasAid(pool, h.aid)
    ensures forall i, j :: 0 <= i < j < |pool + [h]| ==>
      FirstIndex(hits + [h], (pool + [h])[i].aid) < FirstIndex(hits + [h], (pool + [h])[j].aid)
  {
    var s := hits + [h];
    var pool' := pool + [h];
    PoolFirstIndices(hits, h, pool);
    assert !HasAid(hits, h.aid);
    FirstIndexSnoc(hits, h, h.aid);
    forall i, j | 0 <= i < j < |pool'|
      ensures FirstIndex(s, pool'[i].aid) < FirstIndex(s, pool'[j].aid)
    {
      assert pool'[i] == pool[i];
      if j < |pool| {
        assert pool'[j] == pool[j];
      }
    }
  }

  /** The merged pool, stated without reference to how it is built:
      - every record is the LAST hit carrying its `aid` (so on a tie between
        the backends the lexical record, which comes later, wins);
      - every hit with a truthy `aid` is represented;
      - records appear in the order of the FIRST occurrence of their `aid`
        in the concatenated hits. */
  lemma {:induction false} MergeSpec(hits: seq<Hit>)
    ensures PoolOf(hits, Merge(hits))
  {
    if |hits| > 0 {
      var p := hits[..|hits| - 1];
      var h := hits[|hits| - 1];
      assert hits == p + [h];
      MergeSpec(p);
      var m := Merge(p);
      if !Truthy(h.aid) {
        assert Merge(hits) == m;
        MergeStepSkip(p, h, m);
      } else if HasAid(m, h.aid) {
        assert Merge(hits) == Put(m, h);
        MergeStepReplace(p, h, m);
      } else {
        assert Merge(hits) == Put(m, h);
        MergeStepAppend(p, h, m);
      }
    }
  }

  /** A record with a falsy `aid` (`None`, a missing key, `0`, `""`) never
      reaches the pool, and every pool record came from some hit. */
  lemma MergeMembers(hits: seq<Hit>)
    ensures forall x :: x in Merge(hits) ==> x in hits && Truthy(x.aid)
    ensures forall a :: HasAid(Merge(hits), a) <==> Truthy(a) && HasAid(hits, a)
  {
    var pool := Merge(hits);
    MergeSpec(hits);
    forall i | 0 <= i < |pool| ensures pool[i] in hits {
      LastHitIsMember(hits, pool[i].aid);
    }
    forall a | Truthy(a) && HasAid(hits, a) ensures HasAid(pool, a) {
      var j :| 0 <= j < |hits| && hits[j].aid == a;
      assert Truthy(hits[j].aid);
    }
    forall a | HasAid(pool, a) ensures HasAid(hits, a) {
      var i :| 0 <= i < |pool| && pool[i].aid == a;
      LastHitIsMember(hits, a);
    }
  }

  /** Worked example, with vector hits first as the pipeline orders them:
      a vector hit and a lexical hit share `aid` 1, and a lexical hit has
      `aid` 2. The pool has two records, and for `aid` 1 it holds the
      lexical record. */
  lemma MergeExample(v1: Hit, l1: Hit, l2: Hit)
    requires v1.aid == Int(1) && l1.aid == Int(1) && l2.aid == Int(2)
    ensures Merge([v1] + [l1, l2]) == [l1, l2]
  {
    var hits := [v1] + [l1, l2];
    assert hits[..2][..1] == [v1];
    assert hits[..2] == [v1, l1];
    assert hits[..2][..1][..0] == [];
    assert Merge([v1]) == [v1];
    assert Merge([v1, l1]) == [l1];
  }
}

=== FILE: combine_json.dfy ===
/** `combine_json_files`: two loaded JSON documents merged into one. Two
    lists are concatenated, two objects are merged with the second one's
    values winning, and any other pair of shapes is refused. */
module CombineJson {
  import opened Outcome
  import opened Json

  /** Both documents are lists, or both are objects. */
  predicate SameShape(a: Value, b: Value) {
    (a.Array? && b.Array?) || (a.Object? && b.Object?)
  }

  /** The combine rule; `{**a, **b}` keeps every key of either object and
      takes the value from `b` when both have it. */
  function Combine(a: Value, b: Value): (r: Result<Value, PyError>)
    ensures r.Err? <==> !SameShape(a, b)
    ensures r.Err? ==> r.error == ValueError
    ensures r.Ok? && a.Array? ==>
              && r.value.Array?
              && |r.value.elems| == |a.elems| + |b.elems|
              && r.value.elems[..|a.elems|] == a.elems
              && r.value.elems[|a.elems|..] == b.elems
    ensures r.Ok? && a.Object? ==>
              && r.value.Object?
              && r.value.fields.Keys == a.fields.Keys + b.fields.Keys
              && (forall k :: k in b.fields ==> r.value.fields[k] == b.fields[k])
              && (forall k :: k in a.fields && k !in b.fields ==> r.value.fields[k] == a.fields[k])
  {
    if a.Array? && b.Array? then Ok(Array(a.elems + b.elems))
    else if a.Object? && b.Object? then Ok(Object(a.fields + b.fields))
    else Err(ValueError)
  }

  /** Combining three files gives the same document however the two
      combines are grouped. */
  lemma CombineAssociative(a: Value, b: Value, c: Value)
    requires SameShape(a, b) && SameShape(b, c)
    ensures Combine(a, b).Ok? && Combine(b, c).Ok?
    ensures Combine(Combine(a, b).value, c) == Combine(a, Combine(b, c).value)
  {
    if a.Array? {
      assert (a.elems + b.elems) + c.elems == a.elems + (b.elems + c.elems);
    } else {
      assert (a.fields + b.fields) + c.fields == a.fields + (b.fields + c.fields);
    }
  }

  /** An empty document of the same shape changes nothing, on either side. */
  lemma CombineEmpty(a: Value)
    requires a.Array? || a.Object?
    ensures a.Array? ==> Combine(a, Array([])) == Ok(a) && Combine(Array([]), a) == Ok(a)
    ensures a.Object? ==> Combine(a, Object(map[])) == Ok(a) && Combine(Object(map[]), a) == Ok(a)
  {
    if a.Array? {
      assert a.elems + [] == a.elems;
      assert [] + a.elems == a.elems;
    } else {
      assert a.fields + map[] == a.fields;
      assert map[] + a.fields == a.fields;
    }
  }

  /** Combining in the second file again changes nothing for objects: its
      values have already won. */
  lemma CombineAgainObject(a: Value, b: Value)
    requires a.Object? && b.Object?
    ensures Combine(Combine(a, b).value, b) == Combine(a, b)
  {
    assert (a.fields + b.fields) + b.fields == a.fields + b.fields;
  }

  /** A list combined with itself is twice as long, unlike an object, which
      combines with itself to itself. */
  lemma CombineSelf(a: Value)
    requires a.Array? || a.Object?
    ensures a.Array? ==> Combine(a, a) == Ok(Array(a.elems + a.elems))
    ensures a.Object? ==> Combine(a, a) == Ok(a)
  {
    if a.Object? {
      assert a.fields + a.fields == a.fields;
    }
  }
}

=== FILE: corpus_transform.dfy ===
/** `flatten`: the legal corpus (a list of documents, each holding a list of
    articles) turned into one flat list of article records, each carrying
    its parent document's ids. */
module CorpusTransform {
  import opened Outcome
  import opened Json
  import opened Seqs

  /** The four keys of a flat article record. */
  const RecordKeys: set<string> := {"aid", "content_Article", "law_id", "doc_id"}

  /** A document whose articles can all be flattened: a dict with a
      `content` list of dicts that each hold `aid` and `content_Article`;
      its `law_id` and `id` are read only once there is an article. */
  ghost predicate WellFormedDoc(doc: Value) {
    && doc.Object?
    && "content" in doc.fields
    && RecordList(doc.fields["content"]).Ok?
    && var arts := RecordList(doc.fields["content"]).value;
       && (forall j :: 0 <= j < |arts| ==>
             arts[j].Object? && "aid" in arts[j].fields && "content_Article" in arts[j].fields)
       && (|arts| > 0 ==> "law_id" in doc.fields && "id" in doc.fields)
  }

  /** The record built for one article of a document; the dict display
      subscripts `aid`, `content_Article`, `law_id` and `id` in that order. */
  function ArticleRecord(doc: Dict, article: Value): (r: Result<Dict, PyError>)
    ensures r.Ok? <==> article.Object? && "aid" in article.fields && "content_Article" in article.fields
                       && "law_id" in doc && "id" in doc
    ensures r.Ok? ==> r.value.Keys == RecordKeys
    ensures r.Ok? ==>
      && r.value["aid"] == article.fields["aid"]
      && r.value["content_Article"] == article.fields["content_Article"]
      && r.value["law_id"] == doc["law_id"]
      && r.value["doc_id"] == doc["id"]
  {
    if !article.Object? then Err(TypeError)
    else
      var aid :- Index(article.fields, "aid");
      var content :- Index(article.fields, "content_Article");
      var lawId :- Index(doc, "law_id");
      var docId :- Index(doc, "id");
      Ok(map["aid" := aid, "content_Article" := content, "law_id" := lawId, "doc_id" := docId])
  }

  /** The inner loop over one document's articles. */
  function ArticleRecords(doc: Dict, arts: seq<Value>): (r: Result<seq<Dict>, PyError>)
    ensures r.Ok? <==> forall j :: 0 <= j < |arts| ==> ArticleRecord(doc, arts[j]).Ok?
    ensures r.Ok? ==> |r.value| == |arts|
    ensures r.Ok? ==> forall j :: 0 <= j < |arts| ==> r.value[j] == ArticleRecord(doc, arts[j]).value
    ensures r.Err? ==> exists j :: 0 <= j < |arts| && ArticleRecord(doc, arts[j]) == Err(r.error)
  {
    if |arts| == 0 then Ok([])
    else
      var x :- ArticleRecord(doc, arts[0]);
      var rest :- ArticleRecords(doc, arts[1..]);
      assert forall j :: 1 <= j < |arts| ==> arts[j] == arts[1..][j - 1];
      Ok([x] + rest)
  }

  /** The records of one document: `doc["content"]`, iterated. */
  function DocRecords(doc: Value): (r: Result<seq<Dict>, PyError>)
    ensures r.Ok? <==> WellFormedDoc(doc)
    ensures r.Ok? ==> |r.value| == |RecordList(doc.fields["content"]).value|
    ensures r.Ok? ==> forall j :: 0 <= j < |r.value| ==>
      var art := RecordList(doc.fields["content"]).value[j];
      && r.value[j].Keys == RecordKeys
      && r.value[j]["aid"] == art.fields["aid"]
      && r.value[j]["content_Article"] == art.fields["content_Article"]
      && r.value[j]["law_id"] == doc.fields["law_id"]
      && r.value[j]["doc_id"] == doc.fields["id"]
  {
    if !doc.Object? then Err(TypeError)
    else
      var content :- Index(doc.fields, "content");
      var arts :- RecordList(content);
      var r := ArticleRecords(doc.fields, arts);
      assert r.Ok? ==> |arts| > 0 ==> ArticleRecord(doc.fields, arts[0]).Ok?;
      r
  }

  /** `flatten(corpus)`: the documents in order, each contributing its
      articles in order. */
  function Flatten(corpus: seq<Value>): (r: Result<seq<Dict>, PyError>)
    ensures r.Ok? ==> forall i :: 0 <= i < |r.value| ==> r.value[i].Keys == RecordKeys
  {
    if |corpus| == 0 then Ok([])
    else
      var first :- DocRecords(corpus[0]);
      var rest :- Flatten(corpus[1..]);
      Ok(first + rest)
  }

  /** Flattening succeeds exactly when every document is well formed. */
  lemma {:induction false} FlattenOk(corpus: seq<Value>)
    ensures Flatten(corpus).Ok? <==> WellFormedCorpus(corpus)
  {
    if |corpus| > 0 {
      assert forall d :: 1 <= d < |corpus| ==> corpus[d] == corpus[1..][d - 1];
      FlattenOk(corpus[1..]);
    }
  }

  /** Every document is well formed. */
  ghost predicate WellFormedCorpus(corpus: seq<Value>) {
    forall d :: 0 <= d < |corpus| ==> WellFormedDoc(corpus[d])
  }

  /** The per-document record lists of a corpus that flattens. */
  ghost function PerDoc(corpus: seq<Value>): (ss: seq<seq<Dict>>)
    requires WellFormedCorpus(corpus)
    ensures |ss| == |corpus|
  {
    seq(|corpus|, d requires 0 <= d < |corpus| => DocRecords(corpus[d]).value)
  }

  /** Flattening concatenates the documents' record lists in input order. */
  lemma {:induction false} FlattenIsConcat(corpus: seq<Value>)
    requires WellFormedCorpus(corpus)
    ensures Flatten(corpus) == Ok(Concat(PerDoc(corpus)))
  {
    if |corpus| > 0 {
      assert forall d :: 1 <= d < |corpus| ==> corpus[d] == corpus[1..][d - 1];
      FlattenIsConcat(corpus[1..]);
      assert PerDoc(corpus)[1..] == PerDoc(corpus[1..]);
    }
  }

  /** One document in front of the rest: its records, then the rest's. */
  lemma FlattenCons(doc: Value, rest: seq<Value>)
    ensures Flatten([doc] + rest) ==
      match DocRecords(doc)
      case Err(e) => Err(e)
      case Ok(first) =>
        match Flatten(rest)
        case Err(e) => Err(e)
        case Ok(r) => Ok(first + r)
  {
    var c := [doc] + rest;
    assert c[0] == doc && c[1..] == rest;
  }

  /** Flattening distributes over concatenation of corpora: the result of
      `a + b` is the records of `a` then those of `b`, and a failure in `a`
      is reported before anything in `b` is looked at. */
  lemma {:induction false} FlattenAppend(a: seq<Value>, b: seq<Value>)
    ensures Flatten(a + b) ==
      match Flatten(a)
      case Err(e) => Err(e)
      case Ok(ra) =>
        match Flatten(b)
        case Err(e) => Err(e)
        case Ok(rb) => Ok(ra + rb)
  {
    if |a| == 0 {
      assert a + b == b;
      if Flatten(b).Ok? {
        assert [] + Flatten(b).value == Flatten(b).value;
      }
    } else {
      assert a == [a[0]] + a[1..];
      assert a + b == [a[0]] + (a[1..] + b);
      FlattenCons(a[0], a[1..]);
      FlattenCons(a[0], a[1..] + b);
      FlattenAppend(a[1..], b);
      var d := DocRecords(a[0]);
      var ra := Flatten(a[1..]);
      var rb := Flatten(b);
      if d.Ok? && ra.Ok? && rb.Ok? {
        AppendAssoc(d.value, ra.value, rb.value);
      }
    }
  }

  /** The number of records is the total number of articles. */
  lemma FlattenLength(corpus: seq<Value>)
    requires WellFormedCorpus(corpus)
    ensures Flatten(corpus).Ok?
    ensures |Flatten(corpus).value| == SumLengths(PerDoc(corpus))
    ensures forall d :: 0 <= d < |corpus| ==> |PerDoc(corpus)[d]| == |RecordList(corpus[d].fields["content"]).value|
  {
    FlattenIsConcat(corpus);
    ConcatLength(PerDoc(corpus));
  }

  /** Provenance: the record for article `j` of document `d` sits right
      after the records of the documents before `d`, takes `aid` and
      `content_Article` from that article and `law_id` and `doc_id` from
      that document's `law_id` and `id`. */
  lemma FlattenAt(corpus: seq<Value>, d: nat, j: nat)
    requires WellFormedCorpus(corpus)
    requires d < |corpus| && j < |RecordList(corpus[d].fields["content"]).value|
    ensures Flatten(corpus).Ok?
    ensures |Concat(PerDoc(corpus)[..d])| + j < |Flatten(corpus).value|
    ensures var rec := Flatten(corpus).value[|Concat(PerDoc(corpus)[..d])| + j];
            var art := RecordList(corpus[d].fields["content"]).value[j];
            && rec["aid"] == art.fields["aid"]
            && rec["content_Article"] == art.fields["content_Article"]
            && rec["law_id"] == corpus[d].fields["law_id"]
            && rec["doc_id"] == corpus[d].fields["id"]
  {
    FlattenIsConcat(corpus);
    ConcatIndex(PerDoc(corpus), d, j);
  }

  /** A document without articles contributes nothing, even when it lacks
      `law_id` or `id`. */
  lemma EmptyDocContributesNothing(doc: Value, rest: seq<Value>)
    requires doc.Object? && "content" in doc.fields && doc.fields["content"] == Array([])
    ensures Flatten([doc] + rest) == Flatten(rest)
  {
    FlattenCons(doc, rest);
    assert DocRecords(doc) == Ok([]);
    if Flatten(rest).Ok? {
      assert [] + Flatten(rest).value == Flatten(rest).value;
    }
  }
}

=== FILE: elastic_upload.dfy ===
/** The documents `Elastic.bulk_upload` hands to the bulk helper: every
    datapoint with its `embedding` key removed, since the lexical index has
    no use for vectors. */
module ElasticUpload {
  import opened Outcome
  import opened Json
  import QdrantUpload

  /** `"embedding" in s` for a string: a substring test. */
  predicate ContainsEmbedding(s: string) {
    |s| >= 9 && (s[..9] == "embedding" || ContainsEmbedding(s[1..]))
  }

  /** One turn of the loop. `"embedding" in i` is a key test on a dict, a
      membership test on a list and a substring test on a string, and raises
      on anything else; when it holds, `i.items()` raises on a non-dict. A
      datapoint without the key is passed through as it is. */
  function StripOne(item: Value): (r: Result<Value, PyError>)
    ensures item.Object? ==> r.Ok? && r.value.Object?
    ensures item.Object? ==> r.value.fields.Keys == item.fields.Keys - {"embedding"}
    ensures item.Object? ==> forall k :: k in r.value.fields ==> r.value.fields[k] == item.fields[k]
    ensures r.Ok? && !item.Object? ==> r.value == item
    ensures r.Err? <==> (item.Array? && Str("embedding") in item.elems)
                        || (item.Str? && ContainsEmbedding(item.s))
                        || (!item.Object? && !item.Array? && !item.Str?)
  {
    match item
    case Object(m) => if "embedding" in m then Ok(Object(m - {"embedding"})) else Ok(item)
    case Array(xs) => if Str("embedding") in xs then Err(AttributeError) else Ok(item)
    case Str(s) => if ContainsEmbedding(s) then Err(AttributeError) else Ok(item)
    case _ => Err(TypeError)
  }

  /** The loop over the datapoints, in order. */
  function BulkData(datapoints: seq<Value>): (r: Result<seq<Value>, PyError>)
    ensures r.Ok? <==> forall i :: 0 <= i < |datapoints| ==> StripOne(datapoints[i]).Ok?
    ensures r.Ok? ==> |r.value| == |datapoints|
    ensures r.Ok? ==> forall i :: 0 <= i < |datapoints| ==> r.value[i] == StripOne(datapoints[i]).value
  {
    if |datapoints| == 0 then Ok([])
    else
      var x :- StripOne(datapoints[0]);
      var rest :- BulkData(datapoints[1..]);
      assert forall i :: 1 <= i < |datapoints| ==> datapoints[i] == datapoints[1..][i - 1];
      Ok([x] + rest)
  }

  /** Dicts are always accepted, and none of the documents sent keeps an
      embedding. */
  lemma DictsAreStripped(datapoints: seq<Value>)
    requires forall i :: 0 <= i < |datapoints| ==> datapoints[i].Object?
    ensures BulkData(datapoints).Ok?
    ensures forall i :: 0 <= i < |datapoints| ==>
              BulkData(datapoints).value[i].Object? && "embedding" !in BulkData(datapoints).value[i].fields
  {
  }

  /** Stripping twice is stripping once. */
  lemma StripIdempotent(datapoints: seq<Value>)
    requires BulkData(datapoints).Ok?
    ensures BulkData(BulkData(datapoints).value) == BulkData(datapoints)
  {
    var once := BulkData(datapoints).value;
    forall i | 0 <= i < |once| ensures StripOne(once[i]) == Ok(once[i]) {
      assert once[i] == StripOne(datapoints[i]).value;
    }
    assert forall i :: 0 <= i < |once| ==> BulkData(once).value[i] == once[i];
  }

  /** A dict without an embedding is sent unchanged. */
  lemma NoEmbeddingPassesThrough(item: Value)
    requires item.Object? && "embedding" !in item.fields
    ensures StripOne(item) == Ok(item)
  {
  }

  /** The lexical index and the vector index see the same record: for a
      dict that has an id, the document sent here is the Qdrant point's
      payload. */
  lemma SameRecordAsQdrantPayload(item: Value)
    requires item.Object? && QdrantUpload.HasId(item)
    ensures StripOne(item).Ok? && QdrantUpload.ToPoint(item).Ok? && QdrantUpload.ToPoint(item).value.Some?
    ensures StripOne(item).value == Object(QdrantUpload.ToPoint(item).value.value.payload)
  {
    if "embedding" !in item.fields {
      assert item.fields - {"embedding"} == item.fields;
    }
  }

  /** A list holding the string "embedding" passes the membership test and
      then has no `items`. */
  lemma ListWithEmbeddingRaises()
    ensures StripOne(Array([Str("embedding")])) == Err(AttributeError)
  {
  }
}

=== FILE: embed_corpus.dfy ===
/** The resumable embedding script: the flattened corpus minus the articles
    whose `aid` is already embedded is cut into batches of 32, each batch
    is embedded, every record gets its vector under `embedding`, and the
    progress is written out every 1024 records and after the last batch. */
module EmbedCorpus {
  import opened Outcome
  import opened Json
  import opened Seqs
  import opened JinaClient
  import opened CorpusTransform

  /** `batch_size`, used both for the script's batches and for
      `embed_by_batch` inside each of them. */
  const BatchSize: nat := 32
  /** Progress is written whenever the record count is a multiple of this. */
  const CheckpointEvery: nat := 1024

  /** `"aid"` occurs in `s` as a substring. */
  predicate ContainsAid(s: string) {
    |s| >= 3 && (s[..3] == "aid" || ContainsAid(s[1..]))
  }

  /** One element of the already-embedded file, seen by
      `item["aid"] for item in embedded_data if "aid" in item`: a dict
      with the key contributes its `aid`, which must be hashable to enter a
      set. A list or string that passes the `in` test cannot be subscripted
      with a string; `in` itself raises on anything else. */
  function StoredAid(item: Value): (r: Result<Option<Value>, PyError>)
    ensures item.Object? && "aid" in item.fields && Hashable(item.fields["aid"]) ==> r == Ok(Some(item.fields["aid"]))
    ensures item.Object? && "aid" !in item.fields ==> r == Ok(None)
    ensures r.Ok? && r.value.Some? ==> item.Object? && "aid" in item.fields && r.value.value == item.fields["aid"]
  {
    match item
    case Object(m) =>
      if "aid" !in m then Ok(None)
      else if Hashable(m["aid"]) then Ok(Some(m["aid"]))
      else Err(TypeError)
    case Array(xs) => if Str("aid") in xs then Err(TypeError) else Ok(None)
    case Str(s) => if ContainsAid(s) then Err(TypeError) else Ok(None)
    case _ => Err(TypeError)
  }

  /** `embedded_aids`: the set of `aid`s of the records already embedded
      (the file is absent when `embedded` is empty). */
  function EmbeddedAids(embedded: seq<Value>): (r: Result<set<Value>, PyError>)
    ensures r.Ok? <==> forall k :: 0 <= k < |embedded| ==> StoredAid(embedded[k]).Ok?
    ensures r.Ok? ==> forall a :: a in r.value <==>
      exists k :: 0 <= k < |embedded| && StoredAid(embedded[k]) == Ok(Some(a))
  {
    if |embedded| == 0 then Ok({})
    else
      var first :- StoredAid(embedded[0]);
      var rest :- EmbeddedAids(embedded[1..]);
      assert forall k :: 1 <= k < |embedded| ==> embedded[k] == embedded[1..][k - 1];
      assert forall a :: (exists k :: 1 <= k < |embedded| && StoredAid(embedded[k]) == Ok(Some(a))) ==>
        exists k :: 0 <= k < |embedded[1..]| && StoredAid(embedded[1..][k]) == Ok(Some(a));
      Ok(match first case Some(a) => {a} + rest case None => rest)
  }

  /** `to_embed`: the records whose `item.get("aid")` is not in `done`, in
      order. A membership test with an unhashable `aid` raises. */
  function ToEmbed(items: seq<Dict>, done: set<Value>): (r: Result<seq<Dict>, PyError>)
    ensures r.Ok? ==> |r.value| <= |items|
    ensures r.Err? ==> r.error == TypeError
  {
    if |items| == 0 then Ok([])
    else
      var x := items[0];
      if !Hashable(Get(x, "aid")) then Err(TypeError)
      else
        var rest :- ToEmbed(items[1..], done);
        Ok(if Get(x, "aid") in done then rest else [x] + rest)
  }

  /** The filter fails exactly when some record's `aid` is unhashable, and
      otherwise keeps exactly the records whose `aid` is not yet embedded. */
  lemma {:induction false} ToEmbedMembers(items: seq<Dict>, done: set<Value>)
    ensures ToEmbed(items, done).Ok? <==> forall k :: 0 <= k < |items| ==> Hashable(Get(items[k], "aid"))
    ensures ToEmbed(items, done).Ok? ==>
      forall x :: x in ToEmbed(items, done).value <==> x in items && Get(x, "aid") !in done
  {
    if |items| > 0 {
      ToEmbedMembers(items[1..], done);
      assert forall k :: 1 <= k < |items| ==> items[k] == items[1..][k - 1];
      assert forall y :: y in items <==> y == items[0] || y in items[1..];
    }
  }

  /** The filter keeps the order of the records: it distributes over
      concatenation. */
  lemma {:induction false} ToEmbedAppend(a: seq<Dict>, b: seq<Dict>, done: set<Value>)
    requires ToEmbed(a, done).Ok? && ToEmbed(b, done).Ok?
    ensures ToEmbed(a + b, done) == Ok(ToEmbed(a, done).value + ToEmbed(b, done).value)
  {
    if |a| == 0 {
      assert a + b == b;
      assert ToEmbed(a, done) == Ok([]);
      assert [] + ToEmbed(b, done).value == ToEmbed(b, done).value;
    } else {
      assert (a + b)[0] == a[0];
      assert (a + b)[1..] == a[1..] + b;
      ToEmbedAppend(a[1..], b, done);
      var ra, rb := ToEmbed(a[1..], done).value, ToEmbed(b, done).value;
      assert [a[0]] + (ra + rb) == ([a[0]] + ra) + rb;
    }
  }

  /** Nothing already embedded is embedded again, and with nothing embedded
      yet every record is kept. */
  lemma ToEmbedNothingDone(items: seq<Dict>)
    requires ToEmbed(items, {}).Ok?
    ensures ToEmbed(items, {}).value == items
  {
    if |items| > 0 {
      ToEmbedNothingDone(items[1..]);
      assert items == [items[0]] + items[1..];
    }
  }

  /** `min(a, b)`. */
  function Min(a: int, b: int): int {
    if a <= b then a else b
  }

  /** `[(start, min(start + 32, n)) for start in range(from, n, 32)]`. */
  function Ranges(from: nat, n: nat): (rs: seq<(nat, nat)>)
    ensures from >= n <==> rs == []
    decreases n - from
  {
    if from >= n then []
    else [(from, Min(from + BatchSize, n))] + Ranges(from + BatchSize, n)
  }

  /** The ranges tile `[from, n)`: the first starts at `from`, each starts
      where the previous one ends, the last ends at `n`, and each holds 1 to
      32 positions, exactly 32 for all but the last. */
  lemma RangesTile(from: nat, n: nat)
    ensures var rs := Ranges(from, n);
      && (rs != [] ==> rs[0].0 == from && rs[|rs| - 1].1 == n)
      && (forall k :: 0 <= k < |rs| ==> rs[k].0 < rs[k].1 <= n && rs[k].1 - rs[k].0 <= BatchSize)
      && (forall k :: 0 <= k < |rs| - 1 ==> rs[k].1 == rs[k + 1].0 && rs[k].1 - rs[k].0 == BatchSize)
  {
    RangesLastEnd(from, n);
    RangesBounded(from, n);
    RangesChained(from, n);
  }

  lemma {:induction false} RangesLastEnd(from: nat, n: nat)
    ensures Ranges(from, n) != [] ==> Ranges(from, n)[|Ranges(from, n)| - 1].1 == n
    decreases n - from
  {
    if from < n && from + BatchSize < n {
      RangesLastEnd(from + BatchSize, n);
    }
  }

  lemma {:induction false} RangesBounded(from: nat, n: nat)
    ensures forall k :: 0 <= k < |Ranges(from, n)| ==>
      Ranges(from, n)[k].0 < Ranges(from, n)[k].1 <= n && Ranges(from, n)[k].1 - Ranges(from, n)[k].0 <= BatchSize
    decreases n - from
  {
    if from < n {
      RangesBounded(from + BatchSize, n);
      var rs, rest := Ranges(from, n), Ranges(from + BatchSize, n);
      assert forall k :: 1 <= k < |rs| ==> rs[k] == rest[k - 1];
    }
  }

  lemma {:induction false} RangesChained(from: nat, n: nat)
    ensures forall k :: 0 <= k < |Ranges(from, n)| - 1 ==>
      Ranges(from, n)[k].1 == Ranges(from, n)[k + 1].0 && Ranges(from, n)[k].1 == Ranges(from, n)[k].0 + BatchSize
    decreases n - from
  {
    if from < n {
      RangesChained(from + BatchSize, n);
      var rs, rest := Ranges(from, n), Ranges(from + BatchSize, n);
      assert forall k :: 1 <= k < |rs| ==> rs[k] == rest[k - 1];
      if |rs| > 1 {
        assert rs[1] == rest[0];
      }
    }
  }

  /** The batches of the script are exactly `embed_by_batch`'s chunks of
      size 32: the ranges cut the records into consecutive slices, covering
      each record once, in order. */
  lemma {:induction false} RangesAreChunks<T>(xs: seq<T>, from: nat)
    requires from <= |xs|
    ensures |Ranges(from, |xs|)| == |Chunks(xs[from..], BatchSize)|
    ensures forall k :: 0 <= k < |Ranges(from, |xs|)| ==>
      Ranges(from, |xs|)[k].0 <= Ranges(from, |xs|)[k].1 <= |xs| &&
      xs[Ranges(from, |xs|)[k].0..Ranges(from, |xs|)[k].1] == Chunks(xs[from..], BatchSize)[k]
    decreases |xs| - from
  {
    var rs := Ranges(from, |xs|);
    var cs := Chunks(xs[from..], BatchSize);
    if from < |xs| {
      if |xs| - from <= BatchSize {
        assert rs == [(from, |xs|)];
        assert cs == [xs[from..]];
      } else {
        RangesAreChunks(xs, from + BatchSize);
        ChunksStep(xs, from);
        var rest := Ranges(from + BatchSize, |xs|);
        assert rs == [(from, from + BatchSize)] + rest;
        assert forall k :: 1 <= k < |rs| ==> rs[k] == rest[k - 1];
        assert forall k :: 1 <= k < |cs| ==> cs[k] == Chunks(xs[from + BatchSize..], BatchSize)[k - 1];
      }
    }
  }

  lemma ChunksStep<T>(xs: seq<T>, from: nat)
    requires from + BatchSize < |xs|
    ensures Chunks(xs[from..], BatchSize) == [xs[from..from + BatchSize]] + Chunks(xs[from + BatchSize..], BatchSize)
  {
    assert xs[from..][BatchSize..] == xs[from + BatchSize..];
    assert xs[from..][..BatchSize] == xs[from..from + BatchSize];
  }

  /** `[i["content_Article"] for i in batch]`. */
  function Contents(batch: seq<Dict>): (r: Result<seq<Value>, PyError>)
    ensures r.Ok? <==> forall i :: 0 <= i < |batch| ==> "content_Article" in batch[i]
    ensures r.Ok? ==> |r.value| == |batch| && forall i :: 0 <= i < |batch| ==> r.value[i] == batch[i]["content_Article"]
    ensures r.Err? ==> r.error == KeyError("content_Article")
  {
    if forall i :: 0 <= i < |batch| ==> "content_Article" in batch[i] then
      Ok(seq(|batch|, i requires 0 <= i < |batch| => batch[i]["content_Article"]))
    else Err(KeyError("content_Article"))
  }

  /** `data["embedding"] = embeddings[i]` for each record of the batch;
      having fewer vectors than records raises `IndexError`, extra vectors
      are ignored. */
  function Assign(batch: seq<Dict>, embeddings: seq<Value>): (r: Result<seq<Dict>, PyError>)
    ensures r.Ok? <==> |embeddings| >= |batch|
    ensures r.Err? ==> r.error == IndexError
    ensures r.Ok? ==> |r.value| == |batch|
    ensures r.Ok? ==> forall i :: 0 <= i < |batch| ==>
      && r.value[i].Keys == batch[i].Keys + {"embedding"}
      && r.value[i]["embedding"] == embeddings[i]
      && forall key :: key in batch[i] && key != "embedding" ==> r.value[i][key] == batch[i][key]
  {
    if |embeddings| < |batch| then Err(IndexError)
    else Ok(seq(|batch|, i requires 0 <= i < |batch| => batch[i]["embedding" := embeddings[i]]))
  }

  /** One pass of the loop body: the progress message subscripts the first
      and last record's `aid`, then the contents are embedded with
      `embed_by_batch` and the vectors assigned by position. */
  function EmbedBatch(post: Transport, batch: seq<Dict>): (r: Result<seq<Dict>, PyError>)
    ensures |batch| == 0 ==> r == Err(IndexError)
    ensures r.Ok? ==> |r.value| == |batch|
    ensures r.Ok? ==> forall j :: 0 <= j < |batch| ==> EmbeddedFrom(r.value[j], batch[j])
  {
    var first :- At(batch, 0);
    var _ :- Index(first, "aid");
    // `batch[-1]` cannot raise once `batch[0]` did not.
    var last := batch[|batch| - 1];
    var _ :- Index(last, "aid");
    var articles :- Contents(batch);
    var embeddings :- EmbedAll(post, Chunks(articles, BatchSize), "");
    Assign(batch, embeddings)
  }

  /** A batch never holds more than 32 records, so `embed_by_batch` makes a
      single `embed` call for it. */
  lemma OneCallPerBatch(post: Transport, texts: seq<Value>)
    requires 0 < |texts| <= BatchSize
    ensures EmbedAll(post, Chunks(texts, BatchSize), "") == Embed(post, texts, "")
  {
    assert Chunks(texts, BatchSize) == [texts];
    assert [texts][..0] == [];
    var e := Embed(post, texts, "");
    if e.Ok? {
      assert [] + e.value == e.value;
    }
  }

  /** For flattened records, which always carry `aid` and
      `content_Article`, a batch can only fail in the embedding call or
      by receiving too few vectors; record `i` receives vector `i`. */
  lemma FlattenedBatch(post: Transport, batch: seq<Dict>)
    requires 0 < |batch| <= BatchSize
    requires forall i :: 0 <= i < |batch| ==> batch[i].Keys == RecordKeys
    ensures Contents(batch).Ok?
    ensures EmbedBatch(post, batch) ==
      match Embed(post, Contents(batch).value, "")
      case Err(e) => Err(e)
      case Ok(vectors) => Assign(batch, vectors)
  {
    assert "aid" in batch[0] && "aid" in batch[|batch| - 1];
    OneCallPerBatch(post, Contents(batch).value);
  }

  /** The batch of the turn that starts at `s`. */
  function BatchAt(post: Transport, items: seq<Dict>, s: nat): Result<seq<Dict>, PyError>
    requires s <= |items|
  {
    EmbedBatch(post, items[s..Min(s + BatchSize, |items|)])
  }

  /** The loop from `start` on: the batches in order; the first failing
      batch ends the script with its exception. */
  function EmbedFrom(post: Transport, items: seq<Dict>, start: nat): (r: Result<seq<Dict>, PyError>)
    ensures r.Ok? && start <= |items| ==> |r.value| == |items| - start
    ensures r.Err? ==> exists s :: start <= s < |items| && BatchAt(post, items, s) == Err(r.error)
    decreases |items| - start
  {
    if start >= |items| then Ok([])
    else
      var first :- BatchAt(post, items, start);
      var rest :- EmbedFrom(post, items, start + BatchSize);
      Ok(first + rest)
  }

  /** The loop run over an explicit list of `[start, end)` ranges: each
      range's batch in order, the first failing batch ending the run. */
  function BatchesOver(post: Transport, items: seq<Dict>, rs: seq<(nat, nat)>): Result<seq<Dict>, PyError>
    requires forall k :: 0 <= k < |rs| ==> rs[k].0 <= rs[k].1 <= |items|
  {
    if |rs| == 0 then Ok([])
    else
      var first :- EmbedBatch(post, items[rs[0].0..rs[0].1]);
      var rest :- BatchesOver(post, items, rs[1..]);
      Ok(first + rest)
  }

  /** The loop embeds exactly the batches `Ranges` describes, so the tiling
      and chunking facts about `Ranges` are facts about the loop's batches. */
  lemma {:induction false} EmbedFromIsBatchesOver(post: Transport, items: seq<Dict>, start: nat)
    ensures forall k :: 0 <= k < |Ranges(start, |items|)| ==>
      Ranges(start, |items|)[k].0 <= Ranges(start, |items|)[k].1 <= |items|
    ensures EmbedFrom(post, items, start) == BatchesOver(post, items, Ranges(start, |items|))
    decreases |items| - start
  {
    RangesBounded(start, |items|);
    if start < |items| {
      EmbedFromIsBatchesOver(post, items, start + BatchSize);
      var rs := Ranges(start, |items|);
      assert rs[0] == (start, Min(start + BatchSize, |items|));
      assert rs[1..] == Ranges(start + BatchSize, |items|);
    }
  }

  /** The record counts after which the loop writes its progress: a batch
      ending at `end` leaves `end` records, and the file is written when that
      is a multiple of 1024 or the batch is the last one. */
  function SavePoints(start: nat, n: nat): seq<nat>
    decreases n - start
  {
    if start >= n then []
    else
      var end := Min(start + BatchSize, n);
      (if end % CheckpointEvery == 0 || end == n then [end] else []) + SavePoints(start + BatchSize, n)
  }

  /** `acc` followed by the outcome `r`. */
  function Prefixed(acc: seq<Dict>, r: Result<seq<Dict>, PyError>): Result<seq<Dict>, PyError> {
    match r
    case Err(e) => Err(e)
    case Ok(v) => Ok(acc + v)
  }

  /** One batch of the loop: a failing batch ends it with its exception,
      a successful one moves its records into the accumulated result. */
  lemma EmbedFromStep(post: Transport, items: seq<Dict>, start: nat, acc: seq<Dict>)
    requires start < |items|
    ensures var b := EmbedBatch(post, items[start..Min(start + BatchSize, |items|)]);
      && (b.Err? ==> Prefixed(acc, EmbedFrom(post, items, start)) == Err(b.error))
      && (b.Ok? ==> Prefixed(acc, EmbedFrom(post, items, start)) == Prefixed(acc + b.value, EmbedFrom(post, items, start + BatchSize)))
  {
    var b := EmbedBatch(post, items[start..Min(start + BatchSize, |items|)]);
    var rest := EmbedFrom(post, items, start + BatchSize);
    if b.Ok? && rest.Ok? {
      assert acc + (b.value + rest.value) == (acc + b.value) + rest.value;
    }
  }

  /** The loop of the script, batch by batch. `saves` lists the record
      counts at which the progress file is written. */
  method EmbedNew(post: Transport, items: seq<Dict>) returns (r: Result<seq<Dict>, PyError>, saves: seq<nat>)
    ensures r == EmbedFrom(post, items, 0)
    ensures r.Ok? ==> saves == SavePoints(0, |items|)
    ensures r.Err? ==> saves <= SavePoints(0, |items|)
  {
    var acc: seq<Dict> := [];
    saves := [];
    var start := 0;
    EmbedNewStart(post, items);
    while start < |items|
      invariant Progress(post, items, start, acc, saves)
      decreases |items| - start
    {
      var end := Min(start + BatchSize, |items|);
      var b := BatchAt(post, items, start);
      EmbedNewStep(post, items, start, acc, saves);
      if b.Err? {
        r := Err(b.error);
        return;
      }
      acc := acc + b.value;
      saves := Saved(saves, |acc|, end == |items|);
      start := start + BatchSize;
    }
    EmbedNewDone(post, items, start, acc, saves);
    r := Ok(acc);
  }

  /** The loop state of `EmbedNew` after the records before `start`:
      `acc` holds their embedded records, and `saves` the progress
      written so far. */
  ghost predicate Progress(post: Transport, items: seq<Dict>, start: nat, acc: seq<Dict>, saves: seq<nat>) {
    && |acc| == Min(start, |items|)
    && EmbedFrom(post, items, 0) == Prefixed(acc, EmbedFrom(post, items, start))
    && SavePoints(0, |items|) == saves + SavePoints(start, |items|)
  }

  /** Progress is written after `written` records when that count is a
      multiple of 1024 or the batch was the last. */
  function Saved(saves: seq<nat>, written: nat, last: bool): seq<nat> {
    if written % CheckpointEvery == 0 || last then saves + [written] else saves
  }

  lemma EmbedNewStart(post: Transport, items: seq<Dict>)
    ensures Progress(post, items, 0, [], [])
  {
    var all := EmbedFrom(post, items, 0);
    assert all.Ok? ==> [] + all.value == all.value;
    assert SavePoints(0, |items|) == [] + SavePoints(0, |items|);
  }

  lemma EmbedNewDone(post: Transport, items: seq<Dict>, start: nat, acc: seq<Dict>, saves: seq<nat>)
    requires |items| <= start
    ensures Progress(post, items, start, acc, saves) ==>
      EmbedFrom(post, items, 0) == Ok(acc) && SavePoints(0, |items|) == saves
  {
    assert acc + [] == acc;
    assert saves + [] == saves;
  }

  /** One turn of the loop in `EmbedNew` keeps its invariant, and a
      failing batch is the failure of the whole run. */
  lemma EmbedNewStep(post: Transport, items: seq<Dict>, start: nat, acc: seq<Dict>, saves: seq<nat>)
    requires start < |items| && |acc| == start
    ensures Progress(post, items, start, acc, saves) ==>
      var end := Min(start + BatchSize, |items|);
      var b := BatchAt(post, items, start);
      && (b.Err? ==> EmbedFrom(post, items, 0) == Err(b.error) && saves <= SavePoints(0, |items|))
      && (b.Ok? ==>
            Progress(post, items, start + BatchSize, acc + b.value, Saved(saves, |acc + b.value|, end == |items|)))
  {
    var end := Min(start + BatchSize, |items|);
    var b := EmbedBatch(post, items[start..end]);
    EmbedFromStep(post, items, start, acc);
    SavePointsStep(saves, start, |items|);
    if b.Ok? {
      assert |acc + b.value| == end;
    }
  }

  lemma SavePointsStep(saves: seq<nat>, start: nat, n: nat)
    requires start < n
    ensures var end := Min(start + BatchSize, n);
      saves + SavePoints(start, n) ==
        (if end % CheckpointEvery == 0 || end == n then saves + [end] else saves) + SavePoints(start + BatchSize, n)
  {
    var end := Min(start + BatchSize, n);
    if end % CheckpointEvery == 0 || end == n {
      assert saves + ([end] + SavePoints(start + BatchSize, n)) == (saves + [end]) + SavePoints(start + BatchSize, n);
    } else {
      assert [] + SavePoints(start + BatchSize, n) == SavePoints(start + BatchSize, n);
    }
  }

  /** Every position the loop writes at is a multiple of 1024 or the total,
      and the positions increase. */
  lemma {:induction false} SavePointsSound(start: nat, n: nat)
    ensures forall k :: 0 <= k < |SavePoints(start, n)| ==>
      var e := SavePoints(start, n)[k];
      start < e <= n && (e % CheckpointEvery == 0 || e == n)
    ensures forall k :: 0 <= k < |SavePoints(start, n)| - 1 ==> SavePoints(start, n)[k] < SavePoints(start, n)[k + 1]
    decreases n - start
  {
    if start < n {
      SavePointsSound(start + BatchSize, n);
      var end := Min(start + BatchSize, n);
      var head: seq<nat> := if end % CheckpointEvery == 0 || end == n then [end] else [];
      var rest := SavePoints(start + BatchSize, n);
      assert SavePoints(start, n) == head + rest;
      if head != [] && rest != [] {
        assert rest[0] > start + BatchSize - 1;
      }
    }
  }

  /** Every multiple of 1024 up to the total, and the total itself, is a
      save point: the batches end on multiples of 32, and 1024 is one. */
  lemma {:induction false} SavePointsComplete(start: nat, n: nat, m: nat)
    requires start % BatchSize == 0
    requires start < m <= n
    requires m % CheckpointEvery == 0 || m == n
    ensures m in SavePoints(start, n)
    decreases n - start
  {
    var end := Min(start + BatchSize, n);
    if m == end {
      assert SavePoints(start, n) == [end] + SavePoints(start + BatchSize, n);
    } else {
      BatchEndsBefore(start, n, m);
      SavePointsComplete(start + BatchSize, n, m);
      var head: seq<nat> := if end % CheckpointEvery == 0 || end == n then [end] else [];
      assert SavePoints(start, n) == head + SavePoints(start + BatchSize, n);
    }
  }

  /** A save target that the current batch does not end on lies beyond it. */
  lemma BatchEndsBefore(start: nat, n: nat, m: nat)
    requires start % BatchSize == 0
    requires start < m <= n
    requires m % CheckpointEvery == 0 || m == n
    requires m != Min(start + BatchSize, n)
    ensures (start + BatchSize) % BatchSize == 0
    ensures start + BatchSize < m
  {
    if m != n {
      CheckpointIsBatchMultiple(m);
      NextBatchMultiple(start, m);
    }
  }

  /** 1024 is a multiple of 32. */
  lemma CheckpointIsBatchMultiple(m: nat)
    requires m % CheckpointEvery == 0
    ensures m % BatchSize == 0
  {
    var q := m / CheckpointEvery;
    assert m == BatchSize * (32 * q);
  }

  /** Between two multiples of 32 lie at least 32. */
  lemma NextBatchMultiple(start: nat, m: nat)
    requires start % BatchSize == 0 && m % BatchSize == 0 && start < m
    ensures start + BatchSize <= m
  {
    var a := start / BatchSize;
    var b := m / BatchSize;
    assert start == BatchSize * a && m == BatchSize * b;
    assert a < b;
  }

  /** An output record is its input record with `embedding` set and every
      other key unchanged. */
  ghost predicate EmbeddedFrom(out: Dict, item: Dict) {
    && out.Keys == item.Keys + {"embedding"}
    && forall key :: key in item && key != "embedding" ==> out[key] == item[key]
  }

  /** After the loop the result lists the records in order, each carrying
      its embedding and otherwise unchanged. */
  lemma {:induction false} EmbedFromRecords(post: Transport, items: seq<Dict>, start: nat)
    requires start <= |items|
    requires EmbedFrom(post, items, start).Ok?
    ensures |EmbedFrom(post, items, start).value| == |items| - start
    ensures forall i :: start <= i < |items| ==>
      EmbeddedFrom(EmbedFrom(post, items, start).value[i - start], items[i])
    decreases |items| - start
  {
    if start < |items| {
      var end := Min(start + BatchSize, |items|);
      var batch := items[start..end];
      var first := EmbedBatch(post, batch).value;
      var v := EmbedFrom(post, items, start).value;
      assert forall j :: 0 <= j < |batch| ==> batch[j] == items[start + j];
      if start + BatchSize < |items| {
        assert end == start + BatchSize;
        EmbedFromRecords(post, items, end);
        var rest := EmbedFrom(post, items, end).value;
        assert v == first + rest;
        RecordsAppend(items, start, end, first, rest);
      } else {
        assert v == first + [];
        RecordsAppend(items, start, end, first, []);
      }
    }
  }

  /** Records for `items[start..end]` followed by records for `items[end..]`
      are records for `items[start..]`. */
  lemma RecordsAppend(items: seq<Dict>, start: nat, end: nat, first: seq<Dict>, rest: seq<Dict>)
    requires start <= end <= |items|
    requires |first| == end - start && |rest| == |items| - end
    requires forall j :: 0 <= j < |first| ==> EmbeddedFrom(first[j], items[start + j])
    requires forall i :: end <= i < |items| ==> EmbeddedFrom(rest[i - end], items[i])
    ensures forall i :: start <= i < |items| ==> EmbeddedFrom((first + rest)[i - start], items[i])
  {
    forall i | start <= i < |items| ensures EmbeddedFrom((first + rest)[i - start], items[i]) {
      if i < end {
        assert (first + rest)[i - start] == first[i - start];
        assert items[start + (i - start)] == items[i];
      } else {
        assert (first + rest)[i - start] == rest[i - end];
      }
    }
  }

  /** What the script leaves in its output: every record carries an
      embedding, none has an `aid` that was already embedded, and each is a
      flattened record with its embedding added. */
  ghost predicate FreshOutput(out: seq<Dict>, flattened: seq<Dict>, done: set<Value>) {
    forall k :: 0 <= k < |out| ==>
      && "embedding" in out[k]
      && Get(out[k], "aid") !in done
      && exists j :: 0 <= j < |flattened| && EmbeddedFrom(out[k], flattened[j])
  }

  /** A record the loop produced from a record the filter kept. */
  lemma KeptRecord(items: seq<Dict>, done: set<Value>, k: nat, out: Dict)
    requires ToEmbed(items, done).Ok? && k < |ToEmbed(items, done).value|
    requires EmbeddedFrom(out, ToEmbed(items, done).value[k])
    ensures "embedding" in out
    ensures Get(out, "aid") !in done
    ensures exists j :: 0 <= j < |items| && EmbeddedFrom(out, items[j])
  {
    var item := ToEmbed(items, done).value[k];
    ToEmbedMembers(items, done);
    assert item in ToEmbed(items, done).value;
    var j :| 0 <= j < |items| && items[j] == item;
    assert Get(out, "aid") == Get(item, "aid");
  }

  lemma KeptRecords(post: Transport, items: seq<Dict>, done: set<Value>)
    requires ToEmbed(items, done).Ok?
    requires EmbedFrom(post, ToEmbed(items, done).value, 0).Ok?
    ensures FreshOutput(EmbedFrom(post, ToEmbed(items, done).value, 0).value, items, done)
  {
    var out := EmbedFrom(post, ToEmbed(items, done).value, 0).value;
    forall k | 0 <= k < |out|
      ensures "embedding" in out[k]
      ensures Get(out[k], "aid") !in done
      ensures exists j :: 0 <= j < |items| && EmbeddedFrom(out[k], items[j])
    {
      KeptRecordAt(post, items, done, k);
    }
  }

  /** Record `k` of the output is a kept record with its embedding. */
  lemma KeptRecordAt(post: Transport, items: seq<Dict>, done: set<Value>, k: nat)
    requires ToEmbed(items, done).Ok?
    requires EmbedFrom(post, ToEmbed(items, done).value, 0).Ok?
    requires k < |EmbedFrom(post, ToEmbed(items, done).value, 0).value|
    ensures var out := EmbedFrom(post, ToEmbed(items, done).value, 0).value[k];
      && "embedding" in out
      && Get(out, "aid") !in done
      && exists j :: 0 <= j < |items| && EmbeddedFrom(out, items[j])
  {
    var kept := ToEmbed(items, done).value;
    var out := EmbedFrom(post, kept, 0).value;
    EmbedFromRecords(post, kept, 0);
    assert EmbeddedFrom(out[k - 0], kept[k]);
    KeptRecord(items, done, k, out[k]);
  }

  /** Every flattened record whose `aid` is not already embedded appears
      in `out` with its embedding added. */
  ghost predicate CompleteOutput(out: seq<Dict>, flattened: seq<Dict>, done: set<Value>) {
    forall j :: 0 <= j < |flattened| && Get(flattened[j], "aid") !in done ==>
      exists k :: 0 <= k < |out| && EmbeddedFrom(out[k], flattened[j])
  }

  /** Nothing fresh is dropped: each record the filter keeps is embedded
      and output. */
  lemma FreshRecordsEmbedded(post: Transport, items: seq<Dict>, done: set<Value>)
    requires ToEmbed(items, done).Ok?
    requires EmbedFrom(post, ToEmbed(items, done).value, 0).Ok?
    ensures CompleteOutput(EmbedFrom(post, ToEmbed(items, done).value, 0).value, items, done)
  {
    forall j | 0 <= j < |items| && Get(items[j], "aid") !in done
      ensures exists k :: 0 <= k < |EmbedFrom(post, ToEmbed(items, done).value, 0).value|
                && EmbeddedFrom(EmbedFrom(post, ToEmbed(items, done).value, 0).value[k], items[j])
    {
      FreshRecordEmbedded(post, items, done, j);
    }
  }

  lemma FreshRecordEmbedded(post: Transport, items: seq<Dict>, done: set<Value>, j: nat)
    requires ToEmbed(items, done).Ok?
    requires EmbedFrom(post, ToEmbed(items, done).value, 0).Ok?
    requires j < |items| && Get(items[j], "aid") !in done
    ensures exists k :: 0 <= k < |EmbedFrom(post, ToEmbed(items, done).value, 0).value|
              && EmbeddedFrom(EmbedFrom(post, ToEmbed(items, done).value, 0).value[k], items[j])
  {
    var kept := ToEmbed(items, done).value;
    var out := EmbedFrom(post, kept, 0).value;
    var i := KeptIndex(items, done, j);
    EmbedFromRecords(post, kept, 0);
    assert EmbeddedFrom(out[i - 0], kept[i]);
  }

  /** Where the filter puts a record it keeps. */
  lemma KeptIndex(items: seq<Dict>, done: set<Value>, j: nat) returns (i: nat)
    requires ToEmbed(items, done).Ok?
    requires j < |items| && Get(items[j], "aid") !in done
    ensures i < |ToEmbed(items, done).value| && ToEmbed(items, done).value[i] == items[j]
  {
    ToEmbedMembers(items, done);
    assert items[j] in ToEmbed(items, done).value;
    i :| 0 <= i < |ToEmbed(items, done).value| && ToEmbed(items, done).value[i] == items[j];
  }

  /** The progress writes a run makes when every input is well formed and
      every batch succeeds; none when an input is malformed. */
  function RunSavePoints(corpus: seq<Value>, embedded: seq<Value>): seq<nat> {
    var flattened := Flatten(corpus);
    var done := EmbeddedAids(embedded);
    if flattened.Err? || done.Err? then []
    else
      var kept := ToEmbed(flattened.value, done.value);
      if kept.Err? then [] else SavePoints(0, |kept.value|)
  }

  /** The whole script: flatten the corpus, drop what is already embedded,
      embed the rest batch by batch. `embedded` is the content of the
      previously combined embeddings file, empty when there is none; the
      run writes its new records to a different file. */
  method EmbedCorpusRun(post: Transport, corpus: seq<Value>, embedded: seq<Value>)
    returns (r: Result<seq<Dict>, PyError>, saves: seq<nat>)
    ensures r.Ok? ==> Flatten(corpus).Ok? && EmbeddedAids(embedded).Ok?
    ensures r.Ok? ==> FreshOutput(r.value, Flatten(corpus).value, EmbeddedAids(embedded).value)
    ensures r.Ok? ==> CompleteOutput(r.value, Flatten(corpus).value, EmbeddedAids(embedded).value)
    ensures r.Ok? ==> saves == RunSavePoints(corpus, embedded)
    ensures r.Err? ==> saves <= RunSavePoints(corpus, embedded)
  {
    var flattened := Flatten(corpus);
    if flattened.Err? {
      return Err(flattened.error), [];
    }
    var done := EmbeddedAids(embedded);
    if done.Err? {
      return Err(done.error), [];
    }
    var toEmbed := ToEmbed(flattened.value, done.value);
    if toEmbed.Err? {
      return Err(toEmbed.error), [];
    }
    r, saves := EmbedNew(post, toEmbed.value);
    if r.Ok? {
      KeptRecords(post, flattened.value, done.value);
      FreshRecordsEmbedded(post, flattened.value, done.value);
    }
  }
}

=== FILE: evaluate_results.dfy ===
/** `detailed_match_info`: for every query in a results file, how many of
    the retrieved laws are relevant according to the ground truth, how many
    laws are relevant, and how many were retrieved. Laws are compared as
    sets, so a law listed twice counts once. */
module EvaluateResults {
  import opened Outcome
  import opened Json
  import opened Seqs

  /** One entry of the returned list. */
  datatype MatchInfo = MatchInfo(qid: Value, correctRetrieved: nat, totalRelevant: nat, totalRetrieved: nat)

  /** The ground-truth dict: qid to the set of its relevant laws. */
  type Truth = map<Value, set<Value>>

  /** One ground-truth entry, `entry["qid"]: set(entry["relevant_laws"])`:
      the key is evaluated before the value and is hashed only when the pair
      is stored. */
  function TruthEntry(entry: Value): (r: Result<(Value, set<Value>), PyError>)
    ensures r.Ok? <==> && entry.Object? && "qid" in entry.fields && "relevant_laws" in entry.fields
                       && ToSet(entry.fields["relevant_laws"]).Ok? && Hashable(entry.fields["qid"])
    ensures r.Ok? ==> r.value == (entry.fields["qid"], ToSet(entry.fields["relevant_laws"]).value)
    ensures !entry.Object? ==> r == Err(TypeError)
    ensures entry.Object? && "qid" !in entry.fields ==> r == Err(KeyError("qid"))
  {
    if !entry.Object? then Err(TypeError)
    else
      var qid :- Index(entry.fields, "qid");
      var laws :- Index(entry.fields, "relevant_laws");
      var s :- ToSet(laws);
      if !Hashable(qid) then Err(TypeError) else Ok((qid, s))
  }

  /** The dict comprehension over the ground truth, one entry at a time; a
      later entry for the same qid replaces an earlier one. */
  function GroundTruth(entries: seq<Value>): (r: Result<Truth, PyError>)
    ensures r.Ok? <==> forall i :: 0 <= i < |entries| ==> TruthEntry(entries[i]).Ok?
  {
    if |entries| == 0 then Ok(map[])
    else
      var m :- GroundTruth(entries[..|entries| - 1]);
      var e :- TruthEntry(entries[|entries| - 1]);
      assert forall i :: 0 <= i < |entries| - 1 ==> entries[i] == entries[..|entries| - 1][i];
      Ok(m[e.0 := e.1])
  }

  /** Entry `i` is the last ground-truth entry carrying `qid`. */
  ghost predicate LastFor(entries: seq<Value>, qid: Value, i: int)
    requires forall j :: 0 <= j < |entries| ==> TruthEntry(entries[j]).Ok?
  {
    && 0 <= i < |entries|
    && TruthEntry(entries[i]).value.0 == qid
    && forall j :: i < j < |entries| ==> TruthEntry(entries[j]).value.0 != qid
  }

  /** The ground truth knows exactly the qids of its entries. */
  lemma {:induction false} GroundTruthKeys(entries: seq<Value>)
    requires forall j :: 0 <= j < |entries| ==> TruthEntry(entries[j]).Ok?
    ensures GroundTruth(entries).Ok?
    ensures forall q :: q in GroundTruth(entries).value <==>
      exists i :: 0 <= i < |entries| && TruthEntry(entries[i]).value.0 == q
  {
    if |entries| > 0 {
      var p := entries[..|entries| - 1];
      var n := |entries| - 1;
      assert forall i :: 0 <= i < |p| ==> entries[i] == p[i];
      GroundTruthKeys(p);
      var e := TruthEntry(entries[n]).value;
      GroundTruthSnoc(entries);
      forall q ensures q in GroundTruth(entries).value <==>
        exists i :: 0 <= i < |entries| && TruthEntry(entries[i]).value.0 == q
      {
        if exists i :: 0 <= i < |entries| && TruthEntry(entries[i]).value.0 == q {
          var i :| 0 <= i < |entries| && TruthEntry(entries[i]).value.0 == q;
          if i < n {
            assert TruthEntry(p[i]).value.0 == q;
          }
        }
        if q in GroundTruth(entries).value && q != e.0 {
          var i :| 0 <= i < |p| && TruthEntry(p[i]).value.0 == q;
          assert TruthEntry(entries[i]).value.0 == q;
        }
      }
    }
  }

  /** The last entry is stored over the dict built from the others. */
  lemma GroundTruthSnoc(entries: seq<Value>)
    requires |entries| > 0
    requires forall j :: 0 <= j < |entries| ==> TruthEntry(entries[j]).Ok?
    ensures GroundTruth(entries[..|entries| - 1]).Ok?
    ensures var e := TruthEntry(entries[|entries| - 1]).value;
            GroundTruth(entries) == Ok(GroundTruth(entries[..|entries| - 1]).value[e.0 := e.1])
  {
    var p := entries[..|entries| - 1];
    assert forall i :: 0 <= i < |p| ==> entries[i] == p[i];
  }

  /** Each known qid maps to the laws of the last entry that carries it. */
  lemma {:induction false} GroundTruthLastWins(entries: seq<Value>)
    requires forall j :: 0 <= j < |entries| ==> TruthEntry(entries[j]).Ok?
    ensures GroundTruth(entries).Ok?
    ensures forall q :: q in GroundTruth(entries).value ==>
      exists i :: LastFor(entries, q, i) && GroundTruth(entries).value[q] == TruthEntry(entries[i]).value.1
  {
    if |entries| > 0 {
      var p := entries[..|entries| - 1];
      var n := |entries| - 1;
      assert forall i :: 0 <= i < |p| ==> entries[i] == p[i];
      GroundTruthLastWins(p);
      var m := GroundTruth(p).value;
      var e := TruthEntry(entries[n]).value;
      GroundTruthSnoc(entries);
      forall q | q in GroundTruth(entries).value
        ensures exists i :: LastFor(entries, q, i) && GroundTruth(entries).value[q] == TruthEntry(entries[i]).value.1
      {
        if q == e.0 {
          assert LastFor(entries, q, n);
        } else {
          var i :| LastFor(p, q, i) && m[q] == TruthEntry(p[i]).value.1;
          assert LastFor(entries, q, i);
        }
      }
    }
  }

  /** `info` scores `res`: it counts the laws the result predicts, the
      ground-truth laws of its qid (none for an unknown qid), and the laws
      in both. */
  predicate ScoredAs(truth: Truth, res: Value, info: MatchInfo) {
    var actual := if info.qid in truth then truth[info.qid] else {};
    && info.correctRetrieved == |Predicted(res) * actual|
    && info.totalRetrieved == |Predicted(res)|
    && info.totalRelevant == |actual|
  }

  /** The entry built for one result: `res["qid"]` (the result must be a
      dict holding `qid`), `set(res.get("relevant_laws", []))`, and
      `gt_dict.get(qid, set())`, which hashes the qid. */
  function MatchOne(truth: Truth, res: Value): (r: Result<MatchInfo, PyError>)
    ensures !res.Object? ==> r == Err(TypeError)
    ensures r.Ok? ==> res.Object? && "qid" in res.fields && r.value.qid == res.fields["qid"]
    ensures r.Ok? ==> ScoredAs(truth, res, r.value)
    ensures r.Ok? ==> r.value.correctRetrieved <= r.value.totalRelevant
    ensures r.Ok? ==> r.value.correctRetrieved <= r.value.totalRetrieved
  {
    if !res.Object? then Err(TypeError)
    else
      var qid :- Index(res.fields, "qid");
      var predicted :- ToSet(Get(res.fields, "relevant_laws", Array([])));
      if !Hashable(qid) then Err(TypeError)
      else
        var actual := if qid in truth then truth[qid] else {};
        IntersectionBound(predicted, actual);
        Ok(MatchInfo(qid, |predicted * actual|, |actual|, |predicted|))
  }

  /** A result is scored exactly when it is a dict with a hashable `qid`
      and a law list `set` accepts. */
  lemma MatchOneOk(truth: Truth, res: Value)
    ensures MatchOne(truth, res).Ok? <==>
              && res.Object? && "qid" in res.fields
              && ToSet(Get(res.fields, "relevant_laws", Array([]))).Ok?
              && Hashable(res.fields["qid"])
  {
  }

  /** The loop over the results, in order; the first bad result raises. */
  function MatchAll(truth: Truth, results: seq<Value>): (r: Result<seq<MatchInfo>, PyError>)
    ensures r.Ok? <==> forall i :: 0 <= i < |results| ==> MatchOne(truth, results[i]).Ok?
    ensures r.Ok? ==> |r.value| == |results|
    ensures r.Ok? ==> forall i :: 0 <= i < |results| ==> r.value[i] == MatchOne(truth, results[i]).value
  {
    MapAll(res => MatchOne(truth, res), results)
  }

  /** `detailed_match_info` after both files are loaded. */
  function DetailedMatchInfo(groundTruth: seq<Value>, results: seq<Value>): (r: Result<seq<MatchInfo>, PyError>)
    ensures r.Ok? <==> GroundTruth(groundTruth).Ok? && MatchAll(GroundTruth(groundTruth).value, results).Ok?
    ensures r.Ok? ==> |r.value| == |results|
    ensures r.Ok? ==> forall i :: 0 <= i < |results| ==> r.value[i].qid == results[i].fields["qid"]
  {
    var truth :- GroundTruth(groundTruth);
    MatchAll(truth, results)
  }

  /** The set of laws a result that can be scored retrieves. */
  function Predicted(res: Value): set<Value> {
    if res.Object? then ToSet(Get(res.fields, "relevant_laws", Array([]))).GetOr({}) else {}
  }

  /** An intersection is no larger than either side. */
  lemma IntersectionBound(a: set<Value>, b: set<Value>)
    ensures |a * b| <= |a| && |a * b| <= |b|
  {
    assert |a - b| == |a| - |a * b|;
    assert |b - a| == |b| - |b * a|;
    assert a * b == b * a;
  }

  /** `|a * b| == |a|` exactly when `a` lies inside `b`. */
  lemma IntersectionFull(a: set<Value>, b: set<Value>)
    ensures |a * b| == |a| <==> a <= b
  {
    assert |a - b| == |a| - |a * b|;
    if |a * b| == |a| {
      assert |a - b| == 0;
      assert a - b == {};
      forall x | x in a ensures x in b {
        assert x !in a - b;
      }
    } else {
      assert a * b != a;
    }
  }

  /** Precision is perfect exactly when every retrieved law is relevant,
      and recall is perfect exactly when every relevant law was retrieved. */
  lemma PerfectScores(truth: Truth, res: Value)
    requires MatchOne(truth, res).Ok?
    ensures var info := MatchOne(truth, res).value;
            var actual := if info.qid in truth then truth[info.qid] else {};
            && (info.correctRetrieved == info.totalRetrieved <==> Predicted(res) <= actual)
            && (info.correctRetrieved == info.totalRelevant <==> actual <= Predicted(res))
  {
    var info := MatchOne(truth, res).value;
    var actual := if info.qid in truth then truth[info.qid] else {};
    MatchOneOk(truth, res);
    IntersectionFull(Predicted(res), actual);
    IntersectionFull(actual, Predicted(res));
    assert actual * Predicted(res) == Predicted(res) * actual;
  }

  /** A query the ground truth does not know has nothing relevant and so
      nothing correct. */
  lemma UnknownQidScoresZero(truth: Truth, res: Value)
    requires MatchOne(truth, res).Ok?
    requires res.fields["qid"] !in truth
    ensures MatchOne(truth, res).value.correctRetrieved == 0
    ensures MatchOne(truth, res).value.totalRelevant == 0
  {
  }

  /** A result without `relevant_laws` retrieves nothing. */
  lemma MissingLawsRetrieveNothing(truth: Truth, res: Value)
    requires MatchOne(truth, res).Ok?
    requires "relevant_laws" !in res.fields
    ensures MatchOne(truth, res).value.totalRetrieved == 0
    ensures MatchOne(truth, res).value.correctRetrieved == 0
  {
    MatchOneOk(truth, res);
    assert Predicted(res) == {};
  }

  /** A law listed twice is retrieved once. */
  lemma DuplicatesCountOnce(truth: Truth, qid: Value, law: Value)
    requires Hashable(qid) && Hashable(law)
    ensures MatchOne(truth, Object(map["qid" := qid, "relevant_laws" := Array([law, law])])).Ok?
    ensures MatchOne(truth, Object(map["qid" := qid, "relevant_laws" := Array([law, law])]))
            .value.totalRetrieved == 1
  {
    var res := Object(map["qid" := qid, "relevant_laws" := Array([law, law])]);
    var xs := [law, law];
    assert ToSet(Array(xs)) == Ok(set k | 0 <= k < |xs| :: xs[k]);
    assert xs[0] == law;
    assert (set k | 0 <= k < |xs| :: xs[k]) == {law};
  }

  /** Each result is scored on its own: the scores of `a + b` are the
      scores of `a` then those of `b`. */
  lemma MatchAllAppend(truth: Truth, a: seq<Value>, b: seq<Value>)
    requires MatchAll(truth, a).Ok? && MatchAll(truth, b).Ok?
    ensures MatchAll(truth, a + b) == Ok(MatchAll(truth, a).value + MatchAll(truth, b).value)
  {
    MapAllAppend(res => MatchOne(truth, res), a, b);
  }
}

=== FILE: histogram.dfy ===
/** The training-set statistics: how many questions have how many relevant
    laws (a `Counter` over `len(item.get("relevant_laws", []))`), and the
    qids grouped by that count for a chosen set of counts. */
module Histogram {
  import opened Outcome
  import opened Json

  /** `len(item.get("relevant_laws", []))`: a missing list counts as 0;
      `.get` on a non-dict and `len` of a number or `None` raise. */
  function LawCount(item: Value): (r: Result<nat, PyError>)
    ensures !item.Object? ==> r == Err(AttributeError)
    ensures item.Object? && "relevant_laws" !in item.fields ==> r == Ok(0)
    ensures item.Object? && "relevant_laws" in item.fields && item.fields["relevant_laws"].Array? ==>
      r == Ok(|item.fields["relevant_laws"].elems|)
    ensures r.Err? ==> r.error == AttributeError || r.error == TypeError
  {
    if !item.Object? then Err(AttributeError)
    else Len(Get(item.fields, "relevant_laws", Array([])))
  }

  /** The list comprehension of counts. */
  function LawCounts(data: seq<Value>): (r: Result<seq<nat>, PyError>)
    ensures r.Ok? <==> forall i :: 0 <= i < |data| ==> LawCount(data[i]).Ok?
    ensures r.Ok? ==> |r.value| == |data| && forall i :: 0 <= i < |data| ==> r.value[i] == LawCount(data[i]).value
  {
    if |data| == 0 then Ok([])
    else
      var rest :- LawCounts(data[..|data| - 1]);
      var c :- LawCount(data[|data| - 1]);
      assert forall i :: 0 <= i < |data| - 1 ==> data[i] == data[..|data| - 1][i];
      Ok(rest + [c])
  }

  /** `Counter(xs)` as a dict, built one element at a time. */
  function Tally(xs: seq<int>): map<int, nat> {
    if |xs| == 0 then map[]
    else
      var m := Tally(xs[..|xs| - 1]);
      var x := xs[|xs| - 1];
      m[x := if x in m then m[x] + 1 else 1]
  }

  /** The counter holds exactly the values that occur, each with its number
      of occurrences. */
  lemma {:induction false} TallyIsMultiset(xs: seq<int>)
    ensures forall k :: k in Tally(xs) <==> k in multiset(xs)
    ensures forall k :: k in Tally(xs) ==> Tally(xs)[k] == multiset(xs)[k]
  {
    if |xs| > 0 {
      var p := xs[..|xs| - 1];
      TallyIsMultiset(p);
      assert xs == p + [xs[|xs| - 1]];
    }
  }

  /** `histogram_of_relevant_laws_from_file` after loading: the histogram
      of law counts. */
  function HistogramOf(data: seq<Value>): (r: Result<map<int, nat>, PyError>)
    ensures r.Err? ==> exists i :: 0 <= i < |data| && LawCount(data[i]).Err?
    ensures r.Ok? ==> forall k :: k in r.value ==> k >= 0 && r.value[k] > 0
  {
    var counts :- LawCounts(data);
    TallyIsMultiset(counts);
    Ok(Tally(counts))
  }

  /** The sum of a histogram's values. */
  ghost function MapSum(m: map<int, nat>): nat
    decreases |m|
  {
    if |m| == 0 then 0
    else
      NonEmptyHasKey(m);
      var k :| k in m;
      m[k] + MapSum(m - {k})
  }

  lemma NonEmptyHasKey(m: map<int, nat>)
    requires |m| > 0
    ensures exists k :: k in m
  {
    if forall k :: k !in m {
      assert false;
    }
  }

  /** The sum splits as the chosen entry plus the sum of the others. */
  lemma MapSumSplit(m: map<int, nat>)
    requires |m| > 0
    ensures exists k :: k in m && MapSum(m) == m[k] + MapSum(m - {k})
  {
    NonEmptyHasKey(m);
  }

  /** A map that counts a multiset sums to the multiset's size. */
  lemma {:induction false} MapSumCounts(m: map<int, nat>, ms: multiset<int>)
    requires forall k :: k in m <==> k in ms
    requires forall k :: k in m ==> m[k] == ms[k]
    ensures MapSum(m) == |ms|
    decreases |m|
  {
    if |m| != 0 {
      MapSumSplit(m);
      var k :| k in m && MapSum(m) == m[k] + MapSum(m - {k});
      var rest := ms[k := 0];
      MultisetSplit(ms, k);
      assert forall j :: j in m - {k} <==> j in rest by {
        forall j ensures j in m - {k} <==> j in rest {
          if j != k {
            assert rest[j] == ms[j];
          }
        }
      }
      assert forall j :: j in m - {k} ==> (m - {k})[j] == rest[j];
      MapSumCounts(m - {k}, rest);
    } else {
      assert ms == multiset{} by {
        forall j ensures ms[j] == 0 {
          assert j !in m;
        }
      }
    }
  }

  /** Taking every copy of `k` out of a multiset removes `ms[k]` elements. */
  lemma MultisetSplit(ms: multiset<int>, k: int)
    ensures |ms| == ms[k] + |ms[k := 0]|
  {
    assert ms == ms[k := 0] + multiset{}[k := ms[k]];
    SizeOfRepeat(k, ms[k]);
  }

  lemma {:induction false} SizeOfRepeat(k: int, n: nat)
    ensures |multiset{}[k := n]| == n
  {
    if n > 0 {
      SizeOfRepeat(k, n - 1);
      assert multiset{}[k := n] == multiset{}[k := n - 1] + multiset{k};
    } else {
      assert multiset{}[k := 0] == multiset{};
    }
  }

  /** Every question is counted once: the histogram's values sum to the
      number of items. */
  lemma HistogramSum(data: seq<Value>)
    requires HistogramOf(data).Ok?
    ensures MapSum(HistogramOf(data).value) == |data|
  {
    var counts := LawCounts(data).value;
    TallyIsMultiset(counts);
    MapSumCounts(Tally(counts), multiset(counts));
  }

  /** The number of questions with exactly `k` relevant laws. */
  lemma HistogramEntry(data: seq<Value>, k: int)
    requires HistogramOf(data).Ok?
    ensures k in HistogramOf(data).value <==> exists i :: 0 <= i < |data| && LawCount(data[i]) == Ok(k)
    ensures k in HistogramOf(data).value ==>
      HistogramOf(data).value[k] == multiset(LawCounts(data).value)[k]
  {
    var counts := LawCounts(data).value;
    TallyIsMultiset(counts);
    if k in multiset(counts) {
      var i :| 0 <= i < |counts| && counts[i] == k;
    }
    if exists i :: 0 <= i < |data| && LawCount(data[i]) == Ok(k) {
      var i :| 0 <= i < |data| && LawCount(data[i]) == Ok(k);
      assert counts[i] == k;
    }
  }

  /** An item without `relevant_laws` is counted under 0. */
  lemma MissingLawsCountAsZero(data: seq<Value>, i: nat)
    requires HistogramOf(data).Ok?
    requires i < |data| && data[i].Object? && "relevant_laws" !in data[i].fields
    ensures 0 in HistogramOf(data).value
  {
    HistogramEntry(data, 0);
  }

  /** `get_qids_with_law_counts(data, counts)`: one list per requested
      count, filled in input order; `item["qid"]` is read only for items
      whose count is requested. */
  function QidsWithLawCounts(data: seq<Value>, counts: set<int>): (r: Result<map<int, seq<Value>>, PyError>)
    ensures r.Ok? ==> r.value.Keys == counts
  {
    if |data| == 0 then Ok(map c | c in counts :: [])
    else
      var result :- QidsWithLawCounts(data[..|data| - 1], counts);
      var item := data[|data| - 1];
      var n :- LawCount(item);
      if n in counts then
        var qid :- Index(item.fields, "qid");
        Ok(result[n := result[n] + [qid]])
      else Ok(result)
  }

  /** The qids of the items, in order, whose law count is `k`. */
  function QidsOf(data: seq<Value>, k: int): seq<Value> {
    if |data| == 0 then []
    else
      var item := data[|data| - 1];
      QidsOf(data[..|data| - 1], k)
        + (if LawCount(item) == Ok(k) && "qid" in item.fields then [item.fields["qid"]] else [])
  }

  /** Each requested count maps to the qids of the items with that count,
      in input order and with repetitions; an item whose count is not
      requested is skipped without reading its `qid`. */
  lemma {:induction false} QidsAreGrouped(data: seq<Value>, counts: set<int>)
    requires QidsWithLawCounts(data, counts).Ok?
    ensures forall i :: 0 <= i < |data| ==> LawCount(data[i]).Ok?
    ensures forall i :: 0 <= i < |data| && LawCount(data[i]).value in counts ==> "qid" in data[i].fields
    ensures forall k :: k in counts ==> QidsWithLawCounts(data, counts).value[k] == QidsOf(data, k)
  {
    if |data| > 0 {
      var p := data[..|data| - 1];
      QidsAreGrouped(p, counts);
      assert forall i :: 0 <= i < |p| ==> p[i] == data[i];
    }
  }

  /** A failure is reported only when some item's count cannot be taken or
      a requested item lacks its `qid`. */
  lemma {:induction false} QidsOkWhen(data: seq<Value>, counts: set<int>)
    requires forall i :: 0 <= i < |data| ==> LawCount(data[i]).Ok?
    requires forall i :: 0 <= i < |data| && LawCount(data[i]).value in counts ==> "qid" in data[i].fields
    ensures QidsWithLawCounts(data, counts).Ok?
  {
    if |data| > 0 {
      var p := data[..|data| - 1];
      assert forall i :: 0 <= i < |p| ==> p[i] == data[i];
      QidsOkWhen(p, counts);
    }
  }

  /** Each qid list is as long as the histogram entry for its count, or
      empty when that count never occurs. */
  lemma {:induction false} QidsMatchHistogram(data: seq<Value>, counts: set<int>, k: int)
    requires QidsWithLawCounts(data, counts).Ok?
    requires k in counts
    ensures HistogramOf(data).Ok?
    ensures |QidsWithLawCounts(data, counts).value[k]| ==
      if k in HistogramOf(data).value then HistogramOf(data).value[k] else 0
  {
    QidsAreGrouped(data, counts);
    QidsCount(data, counts, k);
    var cs := LawCounts(data).value;
    TallyIsMultiset(cs);
  }

  lemma {:induction false} QidsCount(data: seq<Value>, counts: set<int>, k: int)
    requires forall i :: 0 <= i < |data| ==> LawCount(data[i]).Ok?
    requires forall i :: 0 <= i < |data| && LawCount(data[i]).value in counts ==> "qid" in data[i].fields
    requires k in counts
    ensures |QidsOf(data, k)| == multiset(LawCounts(data).value)[k]
  {
    if |data| > 0 {
      var p := data[..|data| - 1];
      var last := data[|data| - 1];
      assert forall i :: 0 <= i < |p| ==> p[i] == data[i];
      QidsCount(p, counts, k);
      LawCountsSnoc(data);
      var c := LawCount(last).value;
      assert multiset(LawCounts(data).value) == multiset(LawCounts(p).value) + multiset{c};
      if c == k {
        assert "qid" in last.fields;
      }
    }
  }

  lemma LawCountsSnoc(data: seq<Value>)
    requires |data| > 0
    requires forall i :: 0 <= i < |data| ==> LawCount(data[i]).Ok?
    ensures LawCounts(data[..|data| - 1]).Ok?
    ensures LawCounts(data).value == LawCounts(data[..|data| - 1]).value + [LawCount(data[|data| - 1]).value]
  {
    var p := data[..|data| - 1];
    assert forall i :: 0 <= i < |p| ==> p[i] == data[i];
  }
}

=== FILE: hybrid_search.dfy ===
/** `process_query` and the batch around it. One query goes through four
    stages: a vector search on the query's embedding, a lexical search on
    the escaped query text, the `aid`-keyed merge of both hit lists, and a
    rerank of the merged pool. The three backends are parameters. */
module HybridSearch {
  import opened Outcome
  import opened Json
  import opened Seqs
  import opened Picks
  import opened QueryEscape
  import opened CandidateMerge
  import opened JinaClient
  import opened Reranker

  /** The vector backend: a query vector and a result limit are answered by
      the payloads of the nearest points, or `None` when the search raises. */
  type VectorSearch = (Value, nat) -> Option<seq<Dict>>

  /** The lexical backend: a `query_string` query is answered by the raw
      response, or `None` when the search raises. */
  type LexicalSearch = string -> Option<Value>

  /** `limit` of the vector search. */
  const VectorLimit: nat := 3

  /** One element of the query file, reduced to the two fields kept. */
  datatype Query = Query(qid: Value, question: string)

  /** `{"qid": qid, "relevant_laws": reranked_aids}`. */
  datatype QueryResult = QueryResult(qid: Value, relevantLaws: seq<Value>)

  /** The vector stage. Everything inside the `try` is caught: a failing
      embedding call, an empty embedding list (`[0]` raises) and a failing
      search all leave no vector hits. */
  function VectorStage(post: Transport, search: VectorSearch, question: string): (hits: seq<Hit>)
    ensures Embed(post, [Str(question)], "").Err? ==> hits == []
    ensures Embed(post, [Str(question)], "").Ok? && |Embed(post, [Str(question)], "").value| == 0 ==> hits == []
    ensures Embed(post, [Str(question)], "").Ok? && |Embed(post, [Str(question)], "").value| > 0 ==>
      hits == VectorHits(search(Embed(post, [Str(question)], "").value[0], VectorLimit).GetOr([]))
  {
    match Embed(post, [Str(question)], "")
    case Err(_) => []
    case Ok(vectors) =>
      match At(vectors, 0)
      case Err(_) => []
      case Ok(v) => VectorHits(search(v, VectorLimit).GetOr([]))
  }

  /** `elastic_results["hits"]["hits"]`, iterated. A missing key raises
      `KeyError`, subscripting a non-dict raises `TypeError`. */
  function HitList(response: Value): (r: Result<seq<Value>, PyError>)
    ensures response.Object? && "hits" in response.fields && response.fields["hits"].Object?
            && "hits" in response.fields["hits"].fields
            && response.fields["hits"].fields["hits"].Array? ==>
      r == Ok(response.fields["hits"].fields["hits"].elems)
    ensures response.Object? && "hits" !in response.fields ==> r == Err(KeyError("hits"))
    ensures !response.Object? ==> r == Err(TypeError)
  {
    if !response.Object? then Err(TypeError)
    else
      var outer :- Index(response.fields, "hits");
      if !outer.Object? then Err(TypeError)
      else
        var inner :- Index(outer.fields, "hits");
        RecordList(inner)
  }

  /** What the `except` branch substitutes for a failed lexical search. */
  const EmptyResponse: Value := Object(map["hits" := Object(map["hits" := Array([])])])

  /** The lexical stage: the escaped query is searched; a failed search
      counts as an empty response, but a malformed response or hit raises
      out of `process_query`. */
  function LexicalStage(search: LexicalSearch, question: string): (r: Result<seq<Hit>, PyError>)
    ensures search(Escape(question)) == None ==> r == Ok([])
    ensures r.Ok? ==> HitList(search(Escape(question)).GetOr(EmptyResponse)).Ok?
    ensures r.Ok? ==> |r.value| == |HitList(search(Escape(question)).GetOr(EmptyResponse)).value|
  {
    var hits :- HitList(search(Escape(question)).GetOr(EmptyResponse));
    LexicalHits(hits)
  }

  /** The dict comprehension raises `TypeError` when a truthy `aid` is a
      list or a dict, which cannot be a key. */
  function MergeChecked(hits: seq<Hit>): (r: Result<seq<Hit>, PyError>)
    ensures r.Ok? <==> forall k :: 0 <= k < |hits| && Truthy(hits[k].aid) ==> Hashable(hits[k].aid)
    ensures r.Err? ==> r.error == TypeError
    ensures r.Ok? ==> PoolOf(hits, r.value)
  {
    if forall k :: 0 <= k < |hits| && Truthy(hits[k].aid) ==> Hashable(hits[k].aid) then
      MergeSpec(hits);
      Ok(Merge(hits))
    else Err(TypeError)
  }

  /** The rerank stage over a non-empty pool: any exception of the call or
      of mapping its answer back is caught and leaves no aids. */
  function RerankStage(post: Transport, question: string, pool: seq<Hit>): (laws: seq<Value>)
    ensures post("rerank", RerankRequest(question, Articles(pool), DefaultTopN)) == None ==> laws == []
    ensures forall k :: 0 <= k < |laws| ==> HasAid(pool, laws[k])
  {
    match Rerank(post, question, Articles(pool), DefaultTopN)
    case Err(_) => []
    case Ok(items) =>
      RankedAidsInPool(pool, items);
      RankedAids(pool, items).GetOr([])
  }

  /** `[item["content_Article"] for item in results_list]`. */
  function Articles(pool: seq<Hit>): seq<Value> {
    seq(|pool|, k requires 0 <= k < |pool| => pool[k].content)
  }

  /** `process_query(query_obj)`. Only the lexical stage and the merge can
      raise out of it. */
  function ProcessQuery(post: Transport, vs: VectorSearch, ls: LexicalSearch, q: Query): (r: Result<QueryResult, PyError>)
    ensures r.Ok? ==> r.value.qid == q.qid
    ensures LexicalStage(ls, q.question).Err? ==> r == Err(LexicalStage(ls, q.question).error)
    ensures r.Ok? ==> forall k :: 0 <= k < |r.value.relevantLaws| ==>
      Truthy(r.value.relevantLaws[k])
      && HasAid(VectorStage(post, vs, q.question) + LexicalStage(ls, q.question).value, r.value.relevantLaws[k])
    ensures LexicalStage(ls, q.question).Ok? ==>
      var pool := MergeChecked(VectorStage(post, vs, q.question) + LexicalStage(ls, q.question).value);
      && (pool.Err? ==> r == Err(TypeError))
      && (pool.Ok? ==> r.Ok? && r.value.relevantLaws == (if pool.value == [] then [] else RerankStage(post, q.question, pool.value)))
  {
    var lexical :- LexicalStage(ls, q.question);
    var hits := VectorStage(post, vs, q.question) + lexical;
    var pool :- MergeChecked(hits);
    if |pool| == 0 then Ok(QueryResult(q.qid, []))
    else
      var laws := RerankStage(post, q.question, pool);
      MergeMembers(hits);
      Ok(QueryResult(q.qid, laws))
  }

  /** Every aid the rerank comprehension returns names a record of the
      pool. */
  lemma RankedAidsInPool(pool: seq<Hit>, items: seq<Value>)
    ensures RankedAids(pool, items).Ok? ==>
      forall k :: 0 <= k < |RankedAids(pool, items).value| ==> HasAid(pool, RankedAids(pool, items).value[k])
  {
    var r := RankedAids(pool, items);
    if r.Ok? {
      forall k | 0 <= k < |r.value| ensures HasAid(pool, r.value[k]) {
        var i :| 0 <= i < |pool| && RankedAid(pool, items[k]).value == pool[i].aid;
      }
    }
  }

  /** An HTTP error answer is a body without `data`: `embed` returns no
      vectors, `[0]` raises inside the `try`, and the stage has no hits. */
  lemma ErrorAnswerLeavesNoVectorHits(post: Transport, search: VectorSearch, question: string)
    requires post("embeddings", EmbedRequest([Str(question)], "")) == Some(Object(map["detail" := Str("Unauthorized")]))
    ensures Embed(post, [Str(question)], "") == Ok([])
    ensures VectorStage(post, search, question) == []
  {
  }

  /** A vector search that raises contributes nothing, exactly like one that
      finds nothing. */
  lemma VectorOutageIsEmpty(post: Transport, vs: VectorSearch, ls: LexicalSearch, q: Query)
    requires forall v, n :: vs(v, n) == None
    ensures ProcessQuery(post, vs, ls, q) == ProcessQuery(post, (v: Value, n: nat) => Some([]), ls, q)
  {
  }

  /** A lexical search that raises counts as a response with no hits. */
  lemma LexicalOutageIsEmpty(search: LexicalSearch, question: string)
    requires search(Escape(question)) == None
    ensures LexicalStage(search, question) == Ok([])
  {
  }

  /** The lexical backend only ever sees the escaped query text. */
  lemma LexicalSeesEscapedText(post: Transport, vs: VectorSearch, ls1: LexicalSearch, ls2: LexicalSearch, q: Query)
    requires ls1(Escape(q.question)) == ls2(Escape(q.question))
    ensures ProcessQuery(post, vs, ls1, q) == ProcessQuery(post, vs, ls2, q)
  {
  }

  /** With no candidate at all the rerank service is not called: two
      services that answer embedding requests alike give the same result,
      and that result has no aids. */
  lemma EmptyPoolSkipsRerank(post1: Transport, post2: Transport, vs: VectorSearch, ls: LexicalSearch, q: Query)
    requires forall body :: post1("embeddings", body) == post2("embeddings", body)
    requires LexicalStage(ls, q.question).Ok?
    requires Merge(VectorStage(post1, vs, q.question) + LexicalStage(ls, q.question).value) == []
    ensures ProcessQuery(post1, vs, ls, q) == ProcessQuery(post2, vs, ls, q)
    ensures ProcessQuery(post1, vs, ls, q).Ok? ==> ProcessQuery(post1, vs, ls, q).value.relevantLaws == []
  {
    assert VectorStage(post1, vs, q.question) == VectorStage(post2, vs, q.question);
  }

  /** A failing rerank call fails open: the query still gets a result, with
      no aids. */
  lemma RerankFailOpen(post: Transport, vs: VectorSearch, ls: LexicalSearch, q: Query)
    requires forall body :: post("rerank", body) == None
    ensures ProcessQuery(post, vs, ls, q).Ok? ==> ProcessQuery(post, vs, ls, q).value.relevantLaws == []
  {
  }

  /** When the rerank service answers with well-formed items naming
      in-range candidates, the result lists those candidates' aids in the
      service's order. */
  lemma RerankOrderKept(post: Transport, question: string, pool: seq<Hit>, items: seq<Value>, idx: seq<int>)
    requires post("rerank", RerankRequest(question, Articles(pool), DefaultTopN))
             == Some(Object(map["results" := Array(items)]))
    requires |idx| == |items|
    requires forall k :: 0 <= k < |items| ==> NamesCandidate(items[k], idx[k])
    requires forall k :: 0 <= k < |idx| ==> 0 <= idx[k] < |pool|
    ensures |RerankStage(post, question, pool)| == |items|
    ensures forall k :: 0 <= k < |items| ==> RerankStage(post, question, pool)[k] == pool[idx[k]].aid
  {
    RankedAidsInRange(pool, items, idx);
  }

  /** One answer item whose index lies outside the pool empties the rerank
      stage: the comprehension raises and the `except` leaves no aids. */
  lemma RerankOutOfRangeEmpty(post: Transport, question: string, pool: seq<Hit>, items: seq<Value>, j: nat, i: int)
    requires post("rerank", RerankRequest(question, Articles(pool), DefaultTopN))
             == Some(Object(map["results" := Array(items)]))
    requires j < |items|
    requires items[j].Object? && "index" in items[j].fields && items[j].fields["index"] == Int(i)
    requires i < -|pool| || |pool| <= i
    ensures RerankStage(post, question, pool) == []
  {
    RankedAidsOutOfRange(pool, items, j, i);
  }

  /** The first failure in a list of outcomes, or all their values. */
  function AllOk<T>(rs: seq<Result<T, PyError>>): (r: Result<seq<T>, PyError>)
    ensures r.Ok? <==> forall k :: 0 <= k < |rs| ==> rs[k].Ok?
    ensures r.Ok? ==> |r.value| == |rs| && forall k :: 0 <= k < |rs| ==> r.value[k] == rs[k].value
    ensures r.Err? ==> exists k :: 0 <= k < |rs| && rs[k] == Err(r.error) && forall j :: 0 <= j < k ==> rs[j].Ok?
  {
    if |rs| == 0 then Ok([])
    else
      var x :- rs[0];
      var rest :- AllOk(rs[1..]);
      assert forall k :: 1 <= k < |rs| ==> rs[k] == rs[1..][k - 1];
      Ok([x] + rest)
  }

  /** Every query's result, in input order, for a batch in which every
      query succeeds: the reference the batch is compared against. */
  ghost function InputOrderResults(post: Transport, vs: VectorSearch, ls: LexicalSearch, queries: seq<Query>): seq<QueryResult>
    requires forall i :: 0 <= i < |queries| ==> ProcessQuery(post, vs, ls, queries[i]).Ok?
  {
    seq(|queries|, i requires 0 <= i < |queries| => ProcessQuery(post, vs, ls, queries[i]).value)
  }

  /** `as_completed` yields every future exactly once. */
  ghost predicate IsOrder(order: seq<int>, n: nat) {
    multiset(order) == multiset(Range(n))
  }

  /** The batch: results are appended in completion order `order`, which
      the thread pool decides; `future.result()` re-raises the first
      failure met in that order. Nothing sorts the results afterwards. */
  function RunBatch(post: Transport, vs: VectorSearch, ls: LexicalSearch, queries: seq<Query>, order: seq<int>): (r: Result<seq<QueryResult>, PyError>)
    requires Bounded(order, |queries|)
    ensures r.Ok? ==> |r.value| == |order|
    ensures r.Ok? ==> forall k :: 0 <= k < |order| ==>
      ProcessQuery(post, vs, ls, queries[order[k]]).Ok? && r.value[k] == ProcessQuery(post, vs, ls, queries[order[k]]).value
    ensures r.Err? ==> exists k ::
      && 0 <= k < |order|
      && ProcessQuery(post, vs, ls, queries[order[k]]) == Err(r.error)
      && forall j :: 0 <= j < k ==> ProcessQuery(post, vs, ls, queries[order[j]]).Ok?
  {
    var rs := seq(|queries|, i requires 0 <= i < |queries| => ProcessQuery(post, vs, ls, queries[i]));
    var picked := Pick(rs, order);
    PickAt(rs, order);
    assert forall k :: 0 <= k < |order| ==> picked[k] == ProcessQuery(post, vs, ls, queries[order[k]]);
    AllOk(picked)
  }

  lemma OrderCovers(order: seq<int>, n: nat, i: int)
    requires IsOrder(order, n)
    requires 0 <= i < n
    ensures i in order
  {
    assert Range(n)[i] == i;
    assert i in multiset(Range(n));
  }

  lemma OrderBounded(order: seq<int>, n: nat)
    requires IsOrder(order, n)
    ensures Bounded(order, n)
  {
    forall k | 0 <= k < |order| ensures 0 <= order[k] < n {
      assert order[k] in multiset(Range(n));
    }
  }

  /** Whatever the completion order, the batch succeeds exactly when every
      query does. */
  lemma BatchOkIffAllOk(post: Transport, vs: VectorSearch, ls: LexicalSearch, queries: seq<Query>, order: seq<int>)
    requires IsOrder(order, |queries|)
    ensures Bounded(order, |queries|)
    ensures RunBatch(post, vs, ls, queries, order).Ok? <==>
      forall i :: 0 <= i < |queries| ==> ProcessQuery(post, vs, ls, queries[i]).Ok?
  {
    OrderBounded(order, |queries|);
    if exists i :: 0 <= i < |queries| && ProcessQuery(post, vs, ls, queries[i]).Err? {
      var i :| 0 <= i < |queries| && ProcessQuery(post, vs, ls, queries[i]).Err?;
      OrderCovers(order, |queries|, i);
    }
  }

  /** Whatever the completion order, a successful batch holds every query's
      result once: the same multiset as the results in input order. */
  lemma BatchIsPermutation(post: Transport, vs: VectorSearch, ls: LexicalSearch, queries: seq<Query>, order: seq<int>)
    requires IsOrder(order, |queries|)
    ensures Bounded(order, |queries|)
    ensures RunBatch(post, vs, ls, queries, order).Ok? ==>
      (forall i :: 0 <= i < |queries| ==> ProcessQuery(post, vs, ls, queries[i]).Ok?) &&
      multiset(RunBatch(post, vs, ls, queries, order).value) == multiset(InputOrderResults(post, vs, ls, queries))
  {
    BatchOkIffAllOk(post, vs, ls, queries, order);
    var r := RunBatch(post, vs, ls, queries, order);
    if r.Ok? {
      var vals := InputOrderResults(post, vs, ls, queries);
      PickAt(vals, order);
      assert r.value == Pick(vals, order);
      PickRange(vals);
      PickPermutation(vals, order, Range(|queries|));
    }
  }
}

=== FILE: jina_client.dfy ===
/** The client of the embedding and reranking service: request bodies,
    response parsing, and `embed_by_batch`, which splits the texts into
    consecutive chunks and concatenates the per-chunk embeddings. The HTTP
    POST itself is a parameter. */
module JinaClient {
  import opened Outcome
  import opened Json
  import opened Seqs

  /** A POST to the service: the endpoint path (`"embeddings"` or
      `"rerank"`) and the JSON body, answered by the decoded JSON response,
      or `None` when the request or the decoding raises. */
  type Transport = (string, Dict) -> Option<Value>

  const EmbeddingModel: string := "jina-embeddings-v3"
  const RerankModel: string := "jina-reranker-v2-base-multilingual"
  /** `top_n` when the caller gives none. */
  const DefaultTopN: int := 3
  /** `batch_size` of `embed_by_batch` when the caller gives none. */
  const DefaultBatchSize: nat := 8

  /** The body of an embedding request. */
  function EmbedRequest(texts: seq<Value>, task: string): (body: Dict)
    ensures "task" in body <==> task != ""
    ensures task != "" ==> body["task"] == Str(task)
    ensures "input" in body && body["input"] == Array(texts)
    ensures body.Keys <= {"model", "truncate", "input", "task"}
  {
    var base := map["model" := Str(EmbeddingModel), "truncate" := Bool(true), "input" := Array(texts)];
    if task != "" then base["task" := Str(task)] else base
  }

  /** `[i.get("embedding", []) for i in response.get("data", [])]`: each
      element of `data` must be a dict (`.get` on anything else raises
      `AttributeError`). */
  function EmbeddingsOf(items: seq<Value>): (r: Result<seq<Value>, PyError>)
    ensures r.Ok? <==> forall k :: 0 <= k < |items| ==> items[k].Object?
    ensures r.Ok? ==> |r.value| == |items|
    ensures r.Ok? ==> forall k :: 0 <= k < |items| ==>
      r.value[k] == Get(items[k].fields, "embedding", Array([]))
  {
    if forall k :: 0 <= k < |items| ==> items[k].Object? then
      Ok(seq(|items|, k requires 0 <= k < |items| => Get(items[k].fields, "embedding", Array([]))))
    else Err(AttributeError)
  }

  /** The embedding response: a dict whose optional `data` list holds one
      entry per input text. */
  function ParseEmbedResponse(body: Value): (r: Result<seq<Value>, PyError>)
    ensures r.Ok? ==> body.Object?
    ensures body.Object? && "data" !in body.fields ==> r == Ok([])
    ensures body.Object? && "data" in body.fields && body.fields["data"].Array? ==>
      r == EmbeddingsOf(body.fields["data"].elems)
  {
    match body
    case Object(fields) =>
      var items :- GetList(Get(fields, "data", Array([])));
      EmbeddingsOf(items)
    case _ => Err(AttributeError)
  }

  /** The response shape the service documents: `data` holds one
      `{"embedding": v}` per text. */
  function EmbedResponse(vs: seq<Value>): Value {
    Object(map["data" := Array(seq(|vs|, k requires 0 <= k < |vs| => Object(map["embedding" := vs[k]])))])
  }

  /** Parsing gives back exactly the vectors the response was built from. */
  lemma EmbedResponseRoundTrip(vs: seq<Value>)
    ensures ParseEmbedResponse(EmbedResponse(vs)) == Ok(vs)
  {
    var items := seq(|vs|, k requires 0 <= k < |vs| => Object(map["embedding" := vs[k]]));
    var fields := map["data" := Array(items)];
    assert EmbedResponse(vs) == Object(fields);
    assert Get(fields, "data", Array([])) == Array(items);
    assert forall k :: 0 <= k < |items| ==> items[k].Object?;
    var r := EmbeddingsOf(items);
    assert ParseEmbedResponse(EmbedResponse(vs)) == r;
    forall k | 0 <= k < |vs| ensures r.value[k] == vs[k] {
      assert items[k].fields == map["embedding" := vs[k]];
    }
    assert r.value == vs;
  }

  /** A data item without `embedding` stands for the empty vector. */
  lemma MissingEmbeddingIsEmpty(fields: Dict)
    requires "embedding" !in fields
    ensures ParseEmbedResponse(Object(map["data" := Array([Object(fields)])])) == Ok([Array([])])
  {
    var data := map["data" := Array([Object(fields)])];
    assert Get(data, "data", Array([])) == Array([Object(fields)]);
    var r := EmbeddingsOf([Object(fields)]);
    assert ParseEmbedResponse(Object(data)) == r;
    assert r.value[0] == Get(fields, "embedding", Array([])) == Array([]);
    assert r.value == [Array([])];
  }

  /** `Jina.embed(texts, task)`. */
  function Embed(post: Transport, texts: seq<Value>, task: string): (r: Result<seq<Value>, PyError>)
    ensures post("embeddings", EmbedRequest(texts, task)) == None ==> r == Err(ServiceError)
    ensures r.Ok? ==> post("embeddings", EmbedRequest(texts, task)).Some?
                      && post("embeddings", EmbedRequest(texts, task)).value.Object?
    ensures r == Err(ServiceError) <==> post("embeddings", EmbedRequest(texts, task)) == None
  {
    match post("embeddings", EmbedRequest(texts, task))
    case None => Err(ServiceError)
    case Some(body) => ParseEmbedResponse(body)
  }

  /** A service that answers the request for `texts` with one vector per
      text makes `embed` return those vectors, in order. */
  lemma EmbedRoundTrip(post: Transport, texts: seq<Value>, task: string, vs: seq<Value>)
    requires post("embeddings", EmbedRequest(texts, task)) == Some(EmbedResponse(vs))
    ensures Embed(post, texts, task) == Ok(vs)
  {
    EmbedResponseRoundTrip(vs);
  }

  /** `more_itertools.chunked(xs, n)`: consecutive slices of length `n`, the
      last one possibly shorter; a size of 0 yields no chunk at all. */
  function Chunks<T>(xs: seq<T>, n: nat): (cs: seq<seq<T>>)
    ensures n > 0 ==> Concat(cs) == xs
    ensures n == 0 || |xs| == 0 ==> cs == []
    ensures forall k :: 0 <= k < |cs| ==> 1 <= |cs[k]| <= n
    ensures forall k :: 0 <= k < |cs| - 1 ==> |cs[k]| == n
    decreases |xs|
  {
    if n == 0 || |xs| == 0 then []
    else if |xs| <= n then
      assert Concat([xs]) == xs + Concat([xs][1..]);
      [xs]
    else
      var rest := Chunks(xs[n..], n);
      var cs := [xs[..n]] + rest;
      assert cs[1..] == rest;
      assert Concat(cs) == xs[..n] + Concat(rest);
      assert xs == xs[..n] + xs[n..];
      cs
  }

  /** The embeddings of the chunks, concatenated in order; the first chunk
      whose call raises ends the loop with that exception. */
  function EmbedAll(post: Transport, chunks: seq<seq<Value>>, task: string): (r: Result<seq<Value>, PyError>)
    ensures r.Err? ==> exists k :: 0 <= k < |chunks| && Embed(post, chunks[k], task) == Err(r.error)
  {
    if |chunks| == 0 then Ok([])
    else
      assert forall k :: 0 <= k < |chunks| - 1 ==> chunks[..|chunks| - 1][k] == chunks[k];
      var before :- EmbedAll(post, chunks[..|chunks| - 1], task);
      var last :- Embed(post, chunks[|chunks| - 1], task);
      Ok(before + last)
  }

  lemma {:induction false} EmbedAllPrefixErr(post: Transport, chunks: seq<seq<Value>>, k: nat, task: string)
    requires k <= |chunks|
    requires EmbedAll(post, chunks[..k], task).Err?
    ensures EmbedAll(post, chunks, task) == EmbedAll(post, chunks[..k], task)
    decreases |chunks| - k
  {
    if k < |chunks| {
      var p := chunks[..|chunks| - 1];
      assert p[..k] == chunks[..k];
      EmbedAllPrefixErr(post, p, k, task);
    } else {
      assert chunks[..k] == chunks;
    }
  }

  /** One more iteration of the batching loop. */
  lemma EmbedAllStep(post: Transport, chunks: seq<seq<Value>>, k: nat, task: string)
    requires k < |chunks|
    ensures EmbedAll(post, chunks[..k + 1], task) ==
      match EmbedAll(post, chunks[..k], task)
      case Err(e) => Err(e)
      case Ok(before) =>
        match Embed(post, chunks[k], task)
        case Err(e) => Err(e)
        case Ok(last) => Ok(before + last)
  {
    assert chunks[..k + 1][..k] == chunks[..k];
  }

  /** The per-chunk embeddings, for chunks whose calls all succeed. */
  ghost function ChunkVectors(post: Transport, chunks: seq<seq<Value>>, task: string): seq<seq<Value>>
    requires forall k :: 0 <= k < |chunks| ==> Embed(post, chunks[k], task).Ok?
  {
    seq(|chunks|, k requires 0 <= k < |chunks| => Embed(post, chunks[k], task).value)
  }

  lemma ChunkVectorsSnoc(post: Transport, chunks: seq<seq<Value>>, task: string)
    requires |chunks| > 0
    requires forall k :: 0 <= k < |chunks| ==> Embed(post, chunks[k], task).Ok?
    ensures ChunkVectors(post, chunks, task) ==
      ChunkVectors(post, chunks[..|chunks| - 1], task) + [Embed(post, chunks[|chunks| - 1], task).value]
  {
    var p := chunks[..|chunks| - 1];
    var vs := ChunkVectors(post, chunks, task);
    var ps := ChunkVectors(post, p, task);
    forall k | 0 <= k < |vs| ensures vs[k] == (ps + [Embed(post, chunks[|chunks| - 1], task).value])[k] {
      if k < |p| {
        assert vs[k] == Embed(post, chunks[k], task).value;
        assert ps[k] == Embed(post, p[k], task).value;
      } else {
        assert vs[k] == Embed(post, chunks[k], task).value;
      }
    }
  }

  /** Batch embedding succeeds exactly when every chunk's call does. */
  lemma {:induction false} EmbedAllOk(post: Transport, chunks: seq<seq<Value>>, task: string)
    ensures EmbedAll(post, chunks, task).Ok? <==> forall k :: 0 <= k < |chunks| ==> Embed(post, chunks[k], task).Ok?
  {
    if |chunks| > 0 {
      var p := chunks[..|chunks| - 1];
      assert forall k :: 0 <= k < |p| ==> p[k] == chunks[k];
      EmbedAllOk(post, p, task);
    }
  }

  /** When every chunk's call succeeds, batch embedding returns the chunks'
      embeddings concatenated in order. */
  lemma {:induction false} EmbedAllConcat(post: Transport, chunks: seq<seq<Value>>, task: string)
    requires forall k :: 0 <= k < |chunks| ==> Embed(post, chunks[k], task).Ok?
    ensures EmbedAll(post, chunks, task) == Ok(Concat(ChunkVectors(post, chunks, task)))
  {
    if |chunks| > 0 {
      var p := chunks[..|chunks| - 1];
      assert forall k :: 0 <= k < |p| ==> p[k] == chunks[k];
      EmbedAllConcat(post, p, task);
      ChunkVectorsSnoc(post, chunks, task);
      ConcatSnoc(ChunkVectors(post, p, task), Embed(post, chunks[|chunks| - 1], task).value);
    }
  }

  /** When the service answers every request with one vector per input
      text, batching returns one vector per text. */
  lemma OneVectorPerText(post: Transport, texts: seq<Value>, task: string, n: nat)
    requires n > 0
    requires forall ts :: Embed(post, ts, task).Ok? && |Embed(post, ts, task).value| == |ts|
    ensures EmbedAll(post, Chunks(texts, n), task).Ok?
    ensures |EmbedAll(post, Chunks(texts, n), task).value| == |texts|
  {
    var cs := Chunks(texts, n);
    EmbedAllLength(post, cs, task);
  }

  /** A service that answers every embedding request with one vector per
      text, in the documented response shape, gets one vector per text back
      from the batching. */
  lemma ServiceOneVectorPerText(post: Transport, texts: seq<Value>, task: string, n: nat, vectorsFor: seq<Value> -> seq<Value>)
    requires n > 0
    requires forall ts :: |vectorsFor(ts)| == |ts|
    requires forall ts :: post("embeddings", EmbedRequest(ts, task)) == Some(EmbedResponse(vectorsFor(ts)))
    ensures EmbedAll(post, Chunks(texts, n), task).Ok?
    ensures |EmbedAll(post, Chunks(texts, n), task).value| == |texts|
  {
    forall ts ensures Embed(post, ts, task).Ok? && |Embed(post, ts, task).value| == |ts| {
      EmbedRoundTrip(post, ts, task, vectorsFor(ts));
    }
    OneVectorPerText(post, texts, task, n);
  }

  lemma {:induction false} EmbedAllLength(post: Transport, chunks: seq<seq<Value>>, task: string)
    requires forall ts :: Embed(post, ts, task).Ok? && |Embed(post, ts, task).value| == |ts|
    ensures EmbedAll(post, chunks, task).Ok?
    ensures |EmbedAll(post, chunks, task).value| == |Concat(chunks)|
  {
    if |chunks| > 0 {
      var p := chunks[..|chunks| - 1];
      EmbedAllLength(post, p, task);
      assert chunks == p + [chunks[|chunks| - 1]];
      ConcatSnoc(p, chunks[|chunks| - 1]);
    }
  }

  /** The loop of `embed_by_batch` over its chunks: one `embed` call per
      chunk, in order. `sent` lists the chunks posted; the loop stops at the
      first call that raises. */
  method EmbedChunks(post: Transport, batches: seq<seq<Value>>, task: string)
    returns (r: Result<seq<Value>, PyError>, sent: seq<seq<Value>>)
    ensures r == EmbedAll(post, batches, task)
    ensures r.Ok? ==> sent == batches
    ensures r.Err? ==> 0 < |sent| && sent <= batches && Embed(post, sent[|sent| - 1], task).Err?
  {
    var acc: seq<Value> := [];
    sent := [];
    var k := 0;
    while k < |batches|
      invariant k <= |batches|
      invariant sent == batches[..k]
      invariant EmbedAll(post, batches[..k], task) == Ok(acc)
    {
      TakeSnoc(batches, k);
      sent := sent + [batches[k]];
      var e := Embed(post, batches[k], task);
      EmbedAllStep(post, batches, k, task);
      if e.Err? {
        assert sent[k] == batches[k] && sent == batches[..|sent|];
        EmbedAllPrefixErr(post, batches, k + 1, task);
        r := Err(e.error);
        return;
      }
      acc := acc + e.value;
      k := k + 1;
    }
    assert batches[..k] == batches;
    r := Ok(acc);
  }

  /** `Jina.embed_by_batch(texts, task, batch_size)`: the texts are split
      into consecutive chunks and each chunk is embedded with one call. */
  method EmbedByBatch(post: Transport, texts: seq<Value>, task: string, batchSize: nat)
    returns (r: Result<seq<Value>, PyError>, sent: seq<seq<Value>>)
    ensures r == EmbedAll(post, Chunks(texts, batchSize), task)
    ensures r.Ok? ==> sent == Chunks(texts, batchSize) && Concat(sent) == (if batchSize == 0 then [] else texts)
    ensures |texts| == 0 || batchSize == 0 ==> sent == [] && r == Ok([])
  {
    r, sent := EmbedChunks(post, Chunks(texts, batchSize), task);
  }

  /** The body of a rerank request; the documents are not echoed back. */
  function RerankRequest(query: string, docs: seq<Value>, topN: int): (body: Dict)
    ensures "query" in body && body["query"] == Str(query)
    ensures "documents" in body && body["documents"] == Array(docs)
    ensures "top_n" in body && body["top_n"] == Int(topN)
  {
    map["model" := Str(RerankModel), "query" := Str(query), "documents" := Array(docs),
        "top_n" := Int(topN), "return_documents" := Bool(false)]
  }

  /** The rerank response: its `results` list, verbatim and in the
      service's order, or `[]` when the key is absent. The loop copies
      whatever it iterates: the characters of a string, nothing for an
      empty dict; a non-empty dict is reported as `TypeError` (see the
      README for why). */
  function ParseRerankResponse(body: Value): (r: Result<seq<Value>, PyError>)
    ensures r.Ok? ==> body.Object?
    ensures !body.Object? ==> r == Err(AttributeError)
    ensures body.Object? && "results" !in body.fields ==> r == Ok([])
    ensures body.Object? && "results" in body.fields && body.fields["results"].Array? ==>
      r == Ok(body.fields["results"].elems)
    ensures body.Object? && "results" in body.fields && body.fields["results"].Str? ==>
      r.Ok? && |r.value| == |body.fields["results"].s|
  {
    match body
    case Object(fields) =>
      (match Get(fields, "results", Array([]))
       case Array(items) => Ok(items)
       case Str(s) => Ok(seq(|s|, k requires 0 <= k < |s| => Str([s[k]])))
       case Object(m) => if m == map[] then Ok([]) else Err(TypeError)
       case _ => Err(TypeError))
    case _ => Err(AttributeError)
  }

  /** `Jina.rerank(query, docs, top_n)`. */
  function Rerank(post: Transport, query: string, docs: seq<Value>, topN: int := DefaultTopN): (r: Result<seq<Value>, PyError>)
    ensures post("rerank", RerankRequest(query, docs, topN)) == None ==> r == Err(ServiceError)
    ensures r.Ok? ==> post("rerank", RerankRequest(query, docs, topN)).Some?
                      && post("rerank", RerankRequest(query, docs, topN)).value.Object?
  {
    match post("rerank", RerankRequest(query, docs, topN))
    case None => Err(ServiceError)
    case Some(body) => ParseRerankResponse(body)
  }

  /** A service answering `{"results": items}` makes `rerank` return those
      items verbatim, in the service's order. */
  lemma RerankRoundTrip(post: Transport, query: string, docs: seq<Value>, topN: int, items: seq<Value>)
    requires post("rerank", RerankRequest(query, docs, topN)) == Some(Object(map["results" := Array(items)]))
    ensures Rerank(post, query, docs, topN) == Ok(items)
  {
  }
}

=== FILE: json.dfy ===
/** JSON values as the Python code sees them after `json.load`, together with
    the few Python built-ins the code applies to them: `dict.get`, `d[k]`,
    truthiness, `len`, `int`, `set` and sequence indexing. */
module Json {
  import opened Outcome

  datatype Value =
    | Null
    | Bool(b: bool)
    | Int(i: int)
    | Float(r: real)
    | Str(s: string)
    | Array(elems: seq<Value>)
    | Object(fields: map<string, Value>)

  /** A Python `dict` with string keys (key order is not modelled). */
  type Dict = map<string, Value>

  /** The exception kinds the modelled code can raise. `ServiceError` stands
      for anything a network call raises (connection, HTTP, JSON decoding). */
  datatype PyError = KeyError(key: string) | TypeError | AttributeError | IndexError | ValueError | ServiceError

  /** `d.get(key, default)`; `default` is `None` when omitted. */
  function Get(d: Dict, key: string, default: Value := Null): Value {
    if key in d then d[key] else default
  }

  /** `d[key]`, which raises `KeyError` when the key is missing. */
  function Index(d: Dict, key: string): (r: Result<Value, PyError>)
    ensures r.Ok? <==> key in d
    ensures r.Ok? ==> r.value == d[key]
    ensures r.Err? ==> r.error == KeyError(key)
  {
    if key in d then Ok(d[key]) else Err(KeyError(key))
  }

  /** Python truthiness: `None`, `False`, `0`, `0.0`, `""`, `[]` and `{}`
      are false, everything else is true. */
  predicate Truthy(v: Value) {
    match v
    case Null => false
    case Bool(b) => b
    case Int(i) => i != 0
    case Float(r) => r != 0.0
    case Str(s) => s != ""
    case Array(xs) => xs != []
    case Object(m) => m != map[]
  }

  /** Lists and dicts are unhashable: using one as a dict key or set member raises. */
  predicate Hashable(v: Value) {
    !v.Array? && !v.Object?
  }

  /** `len(v)`: defined for strings, lists and dicts, `TypeError` otherwise. */
  function Len(v: Value): Result<nat, PyError> {
    match v
    case Str(s) => Ok(|s|)
    case Array(xs) => Ok(|xs|)
    case Object(m) => Ok(|m|)
    case _ => Err(TypeError)
  }

  /** Truncation toward zero, as Python's `int(x)` does for a float. */
  function Truncate(r: real): int {
    if r >= 0.0 then r.Floor else -((-r).Floor)
  }

  predicate IsDigit(c: char) {
    '0' <= c <= '9'
  }

  /** The value of a non-empty string of decimal digits. */
  function DigitsValue(s: string): nat
    requires forall k :: 0 <= k < |s| ==> IsDigit(s[k])
  {
    if |s| == 0 then 0
    else
      assert IsDigit(s[|s| - 1]);
      10 * DigitsValue(s[..|s| - 1]) + (s[|s| - 1] as int - '0' as int)
  }

  /** `int(s)` for a string: an optional sign followed by decimal digits. */
  function ParseInt(s: string): Result<int, PyError> {
    if |s| > 0 && (s[0] == '-' || s[0] == '+') then
      var digits := s[1..];
      if |digits| > 0 && forall k :: 0 <= k < |digits| ==> IsDigit(digits[k]) then
        var n: int := DigitsValue(digits);
        Ok(if s[0] == '-' then -n else n)
      else Err(ValueError)
    else if |s| > 0 && forall k :: 0 <= k < |s| ==> IsDigit(s[k]) then
      Ok(DigitsValue(s))
    else Err(ValueError)
  }

  /** `int(v)` applied to a JSON value. */
  function ToInt(v: Value): Result<int, PyError> {
    match v
    case Int(i) => Ok(i)
    case Bool(b) => Ok(if b then 1 else 0)
    case Float(r) => Ok(Truncate(r))
    case Str(s) => ParseInt(s)
    case _ => Err(TypeError)
  }

  /** `set(v)`: the elements of a list (each must be hashable), the
      one-character strings of a string, or the keys of a dict. */
  function ToSet(v: Value): Result<set<Value>, PyError> {
    match v
    case Array(xs) =>
      if forall k :: 0 <= k < |xs| ==> Hashable(xs[k]) then Ok(set k | 0 <= k < |xs| :: xs[k])
      else Err(TypeError)
    case Str(s) => Ok(set k | 0 <= k < |s| :: Str([s[k]]))
    case Object(m) => Ok(set key | key in m :: Str(key))
    case _ => Err(TypeError)
  }

  /** `s[k]` for a Python list: negative indices count from the end, and an
      index outside `[-len(s), len(s))` raises `IndexError`. */
  function At<T>(s: seq<T>, k: int): (r: Result<T, PyError>)
    ensures r.Ok? <==> -|s| <= k < |s|
    ensures 0 <= k < |s| ==> r == Ok(s[k])
    ensures -|s| <= k < 0 ==> r == Ok(s[|s| + k])
  {
    if 0 <= k < |s| then Ok(s[k])
    else if -|s| <= k < 0 then Ok(s[|s| + k])
    else Err(IndexError)
  }

  /** The elements met by `for x in v: x[key]` with a string `key`. A list
      yields its elements. Iterating a dict or a string yields strings, and
      subscripting a string with a string raises `TypeError`, so only an
      empty one gets through. Anything else is not iterable. */
  function RecordList(v: Value): (r: Result<seq<Value>, PyError>)
    ensures v.Array? ==> r == Ok(v.elems)
    ensures r.Ok? ==> v.Array? || v == Object(map[]) || v == Str("")
    ensures r.Ok? && !v.Array? ==> r.value == []
    ensures r.Err? ==> r.error == TypeError
  {
    match v
    case Array(xs) => Ok(xs)
    case Object(m) => if m == map[] then Ok([]) else Err(TypeError)
    case Str(s) => if s == "" then Ok([]) else Err(TypeError)
    case _ => Err(TypeError)
  }

  /** The elements met by `for x in v: x.get(...)`: as `RecordList`, except
      that calling `.get` on a string raises `AttributeError`. */
  function GetList(v: Value): (r: Result<seq<Value>, PyError>)
    ensures v.Array? ==> r == Ok(v.elems)
    ensures r.Ok? ==> v.Array? || v == Object(map[]) || v == Str("")
    ensures r.Ok? && !v.Array? ==> r.value == []
    ensures (v.Object? || v.Str?) && r.Err? ==> r.error == AttributeError
  {
    match v
    case Array(xs) => Ok(xs)
    case Object(m) => if m == map[] then Ok([]) else Err(AttributeError)
    case Str(s) => if s == "" then Ok([]) else Err(AttributeError)
    case _ => Err(TypeError)
  }
}

=== FILE: outcome.dfy ===
/** Failure-carrying datatypes used throughout the model. A Python call that
    raises is modelled as a `Result` whose `Err` carries the exception kind;
    a call whose outcome is "something or nothing" is an `Option`. Both are
    failure-compatible, so `:-` propagates an uncaught exception. */
module Outcome {

  datatype Option<+T> = None | Some(value: T) {

    predicate IsFailure() {
      None?
    }

    function PropagateFailure<U>(): Option<U>
      requires None?
    {
      None
    }

    function Extract(): T
      requires Some?
    {
      value
    }

    /** The value, or `default` when there is none. */
    function GetOr(default: T): T {
      match this
      case Some(v) => v
      case None => default
    }
  }

  datatype Result<+T, +E> = Ok(value: T) | Err(error: E) {

    predicate IsFailure() {
      Err?
    }

    function PropagateFailure<U>(): Result<U, E>
      requires Err?
    {
      Err(error)
    }

    function Extract(): T
      requires Ok?
    {
      value
    }

    /** The value, or `default` when the computation raised: the shape of a
        Python `try: ... except Exception: x = default`. */
    function GetOr(default: T): T {
      match this
      case Ok(v) => v
      case Err(_) => default
    }
  }
}

=== FILE: qdrant_upload.dfy ===
/** The point list `Qdrant.bulk_upload` hands to `upsert`: one point per
    datapoint that has an `aid`, whose payload is the datapoint without its
    embedding and whose vector is that embedding. */
module QdrantUpload {
  import opened Outcome
  import opened Json
  import opened Seqs

  datatype Point = Point(id: Value, vector: Value, payload: Dict)

  /** A datapoint that yields a point: its `aid` is present and not `None`.
      An `aid` of `0` or `""` is kept; only `None` is skipped. */
  predicate HasId(data: Value)
    requires data.Object?
  {
    "aid" in data.fields && data.fields["aid"] != Null
  }

  /** One turn of the loop: `data.get("embedding", [])` (a non-dict has no
      `get`), the payload comprehension, `payload.get("aid")` and the skip. */
  function ToPoint(data: Value): (r: Result<Option<Point>, PyError>)
    ensures r.Err? <==> !data.Object?
    ensures r.Err? ==> r.error == AttributeError
    ensures r.Ok? ==> (r.value.Some? <==> HasId(data))
    ensures r.Ok? && r.value.Some? ==>
              && r.value.value.id == data.fields["aid"]
              && r.value.value.id != Null
              && "embedding" !in r.value.value.payload
              && r.value.value.payload.Keys == data.fields.Keys - {"embedding"}
              && (forall k :: k in r.value.value.payload ==> r.value.value.payload[k] == data.fields[k])
              && ("embedding" in data.fields ==> r.value.value.vector == data.fields["embedding"])
              && ("embedding" !in data.fields ==> r.value.value.vector == Array([]))
  {
    if !data.Object? then Err(AttributeError)
    else
      var embedding := Get(data.fields, "embedding", Array([]));
      var payload := data.fields - {"embedding"};
      var id := Get(payload, "aid");
      if id == Null then Ok(None) else Ok(Some(Point(id, embedding, payload)))
  }

  /** The loop over the datapoints, in order. */
  function BuildPoints(datapoints: seq<Value>): (r: Result<seq<Point>, PyError>)
    ensures r.Ok? <==> forall i :: 0 <= i < |datapoints| ==> datapoints[i].Object?
    ensures r.Ok? ==> |r.value| <= |datapoints|
    ensures r.Ok? ==> forall j :: 0 <= j < |r.value| ==>
              && r.value[j].id != Null
              && "embedding" !in r.value[j].payload
              && "aid" in r.value[j].payload
              && r.value[j].payload["aid"] == r.value[j].id
  {
    if |datapoints| == 0 then Ok([])
    else
      var p :- ToPoint(datapoints[0]);
      var rest :- BuildPoints(datapoints[1..]);
      assert forall i :: 1 <= i < |datapoints| ==> datapoints[i] == datapoints[1..][i - 1];
      Ok((if p.Some? then [p.value] else []) + rest)
  }

  /** The datapoints that have an id, in order: a reference for which
      datapoints become points. */
  function Kept(datapoints: seq<Value>): (r: seq<Value>)
    requires forall i :: 0 <= i < |datapoints| ==> datapoints[i].Object?
    ensures |r| <= |datapoints|
    ensures forall j :: 0 <= j < |r| ==> r[j].Object? && HasId(r[j]) && r[j] in datapoints
  {
    if |datapoints| == 0 then []
    else
      assert forall i :: 1 <= i < |datapoints| ==> datapoints[i] == datapoints[1..][i - 1];
      (if HasId(datapoints[0]) then [datapoints[0]] else []) + Kept(datapoints[1..])
  }

  /** `p` is the point built from the datapoint `d`: its id is `d`'s
      `aid`, its payload `d` minus the embedding, and its vector that
      embedding (or `[]`). */
  predicate PointOf(p: Point, d: Value)
    requires d.Object? && HasId(d)
  {
    && p.id == d.fields["aid"]
    && p.payload == d.fields - {"embedding"}
    && p.vector == Get(d.fields, "embedding", Array([]))
  }

  /** Points that match their datapoints pairwise still do after one more
      matching pair in front. */
  lemma PointsOfCons(p: Point, d: Value, ps: seq<Point>, ds: seq<Value>)
    requires d.Object? && HasId(d) && PointOf(p, d)
    requires |ps| == |ds|
    requires forall j :: 0 <= j < |ds| ==> ds[j].Object? && HasId(ds[j]) && PointOf(ps[j], ds[j])
    ensures forall j :: 0 <= j < |ds| + 1 ==> ([d] + ds)[j].Object? && HasId(([d] + ds)[j]) && PointOf(([p] + ps)[j], ([d] + ds)[j])
  {
    forall j | 0 < j < |ds| + 1
      ensures ([d] + ds)[j].Object? && HasId(([d] + ds)[j]) && PointOf(([p] + ps)[j], ([d] + ds)[j])
    {
      assert ([d] + ds)[j] == ds[j - 1] && ([p] + ps)[j] == ps[j - 1];
    }
  }

  /** Point `j` is built from the `j`-th datapoint that has an id. */
  lemma {:induction false} PointsFollowKept(datapoints: seq<Value>)
    requires forall i :: 0 <= i < |datapoints| ==> datapoints[i].Object?
    ensures BuildPoints(datapoints).Ok?
    ensures |BuildPoints(datapoints).value| == |Kept(datapoints)|
    ensures forall j :: 0 <= j < |Kept(datapoints)| ==> PointOf(BuildPoints(datapoints).value[j], Kept(datapoints)[j])
  {
    if |datapoints| > 0 {
      var rest := datapoints[1..];
      assert forall i :: 0 <= i < |rest| ==> rest[i] == datapoints[i + 1];
      PointsFollowKept(rest);
      var ps := BuildPoints(datapoints).value;
      var ks := Kept(datapoints);
      var pr := BuildPoints(rest).value;
      var kr := Kept(rest);
      if HasId(datapoints[0]) {
        assert ps == [ToPoint(datapoints[0]).value.value] + pr;
        assert ks == [datapoints[0]] + kr;
        PointsOfCons(ToPoint(datapoints[0]).value.value, datapoints[0], pr, kr);
      } else {
        assert ps == pr;
        assert ks == kr;
      }
    }
  }

  /** A point gives back the datapoint it was built from: putting the
      vector back under `embedding` restores the original dict. */
  lemma PointRestoresDatapoint(data: Value)
    requires data.Object? && HasId(data) && "embedding" in data.fields
    ensures ToPoint(data).Ok? && ToPoint(data).value.Some?
    ensures var p := ToPoint(data).value.value;
            p.payload["embedding" := p.vector] == data.fields
  {
    var p := ToPoint(data).value.value;
    assert p.payload["embedding" := p.vector].Keys == data.fields.Keys;
  }

  /** Uploading two lists of datapoints builds the points of the first then
      those of the second. */
  lemma {:induction false} BuildPointsAppend(a: seq<Value>, b: seq<Value>)
    requires forall i :: 0 <= i < |a| ==> a[i].Object?
    requires forall i :: 0 <= i < |b| ==> b[i].Object?
    ensures BuildPoints(a + b) == Ok(BuildPoints(a).value + BuildPoints(b).value)
  {
    if |a| == 0 {
      assert a + b == b;
      assert [] + BuildPoints(b).value == BuildPoints(b).value;
    } else {
      var c := a + b;
      assert c[0] == a[0] && c[1..] == a[1..] + b;
      BuildPointsAppend(a[1..], b);
      var h := if ToPoint(a[0]).value.Some? then [ToPoint(a[0]).value.value] else [];
      assert BuildPoints(c).value == h + (BuildPoints(a[1..]).value + BuildPoints(b).value);
      assert BuildPoints(a).value == h + BuildPoints(a[1..]).value;
      AppendAssoc(h, BuildPoints(a[1..]).value, BuildPoints(b).value);
    }
  }

  /** A datapoint whose `aid` is `None` is skipped; one whose `aid` is the
      falsy `0` is not. */
  lemma NoneSkippedZeroKept(fields: Dict)
    ensures ToPoint(Object(fields["aid" := Null])) == Ok(None)
    ensures ToPoint(Object(fields["aid" := Int(0)])).value.Some?
  {
  }
}

=== FILE: query_escape.dfy ===
/** The lexical backend's query sanitizer, `escape_query_string`: every
    character that the `query_string` grammar treats specially gets a
    backslash in front of it; every other character is copied as is. */
module QueryEscape {

  /** The characters matched by the class `[+\-!(){}[\]^"~*?:\\/]`. */
  const Reserved: set<char> :=
    {'+', '-', '!', '(', ')', '{', '}', '[', ']', '^', '"', '~', '*', '?', ':', '\\', '/'}

  /** The output for one input character. */
  function EscapeChar(c: char): string {
    if c in Reserved then ['\\', c] else [c]
  }

  /** The number of reserved characters in `s`. */
  function ReservedCount(s: string): nat {
    if |s| == 0 then 0
    else (if s[0] in Reserved then 1 else 0) + ReservedCount(s[1..])
  }

  /** `escape_query_string(s)`: one left-to-right pass that substitutes each
      match of the reserved class by a backslash and the match. */
  function Escape(s: string): (r: string)
    ensures |r| == |s| + ReservedCount(s)
    ensures ReservedCount(s) == 0 ==> r == s
  {
    if |s| == 0 then ""
    else EscapeChar(s[0]) + Escape(s[1..])
  }

  /** Reads an escaped string back: a backslash takes the next character
      literally. The inverse of `Escape`. */
  function Unescape(s: string): string {
    if |s| == 0 then ""
    else if s[0] == '\\' && |s| >= 2 then [s[1]] + Unescape(s[2..])
    else [s[0]] + Unescape(s[1..])
  }

  /** Escaping never loses information: the original query can always be
      recovered from what is sent to the lexical backend. */
  lemma {:induction false} UnescapeEscape(s: string)
    ensures Unescape(Escape(s)) == s
  {
    if |s| > 0 {
      var e := Escape(s);
      UnescapeEscape(s[1..]);
      if s[0] in Reserved {
        assert e == ['\\', s[0]] + Escape(s[1..]);
        assert e[2..] == Escape(s[1..]);
      } else {
        assert s[0] != '\\';
        assert e == [s[0]] + Escape(s[1..]);
        assert e[1..] == Escape(s[1..]);
      }
      assert s == [s[0]] + s[1..];
    }
  }

  /** Escaping works character by character, so it distributes over
      concatenation. */
  lemma {:induction false} EscapeAppend(a: string, b: string)
    ensures Escape(a + b) == Escape(a) + Escape(b)
  {
    if |a| > 0 {
      assert (a + b)[1..] == a[1..] + b;
      EscapeAppend(a[1..], b);
    } else {
      assert a + b == b;
    }
  }

  /** Each position of the input contributes exactly `EscapeChar` of its
      character, in order: a reserved character becomes backslash plus the
      character, any other character is left unchanged. */
  lemma {:induction false} EscapeAt(s: string, i: nat)
    requires i < |s|
    ensures Escape(s) == Escape(s[..i]) + EscapeChar(s[i]) + Escape(s[i + 1..])
  {
    assert s == s[..i] + ([s[i]] + s[i + 1..]);
    EscapeAppend(s[..i], [s[i]] + s[i + 1..]);
    assert ([s[i]] + s[i + 1..])[1..] == s[i + 1..];
  }

  /** Worked example: `a+b-c` becomes `a\+b\-c`. */
  lemma EscapeExample()
    ensures Escape("a+b-c") == "a\\+b\\-c"
  {
    assert "a+b-c"[1..] == "+b-c";
    assert "+b-c"[1..] == "b-c";
    assert "b-c"[1..] == "-c";
    assert "-c"[1..] == "c";
    assert Escape("c") == "c";
    assert Escape("-c") == "\\-c";
    assert Escape("b-c") == "b\\-c";
    assert Escape("+b-c") == "\\+b\\-c";
  }
}

=== FILE: reranker.dfy ===
/** Mapping the reranking service's answer back onto the candidate pool:
    each answer item names a candidate by `index`, and the pipeline keeps
    that candidate's `aid`. Indices are not bounds-checked: they are
    subscripts into a Python list, so a negative index counts from the end
    and any other out-of-range index raises. */
module Reranker {
  import opened Outcome
  import opened Json
  import opened CandidateMerge

  /** `results_list[int(item["index"])] | {"relevance_score": item["relevance_score"]}`,
      reduced to the `aid` the pipeline keeps. Any exception is reported. */
  function RankedAid(pool: seq<Hit>, item: Value): (r: Result<Value, PyError>)
    ensures r.Ok? ==> exists i :: 0 <= i < |pool| && r.value == pool[i].aid
  {
    if !item.Object? then Err(TypeError)
    else
      var index :- Index(item.fields, "index");
      var k :- ToInt(index);
      var hit :- At(pool, k);
      var score :- Index(item.fields, "relevance_score");
      Ok(hit.aid)
  }

  /** The list comprehension over the answer items: it raises at the first
      malformed item. */
  function RankedAids(pool: seq<Hit>, items: seq<Value>): (r: Result<seq<Value>, PyError>)
    ensures r.Ok? <==> forall k :: 0 <= k < |items| ==> RankedAid(pool, items[k]).Ok?
    ensures r.Ok? ==> |r.value| == |items|
    ensures r.Ok? ==> forall k :: 0 <= k < |items| ==> r.value[k] == RankedAid(pool, items[k]).value
  {
    if |items| == 0 then Ok([])
    else
      var a :- RankedAid(pool, items[0]);
      var rest :- RankedAids(pool, items[1..]);
      assert forall k :: 1 <= k < |items| ==> items[k] == items[1..][k - 1];
      Ok([a] + rest)
  }

  /** A well-formed answer item naming candidate `i`. */
  predicate NamesCandidate(item: Value, i: int) {
    && item.Object?
    && "index" in item.fields && item.fields["index"] == Int(i)
    && "relevance_score" in item.fields
  }

  /** When every item carries an in-range integer index and a score, the
      result lists the named candidates' `aid`s in the service's order: the
      pipeline does not re-sort. */
  lemma RankedAidsInRange(pool: seq<Hit>, items: seq<Value>, idx: seq<int>)
    requires |idx| == |items|
    requires forall k :: 0 <= k < |items| ==> NamesCandidate(items[k], idx[k])
    requires forall k :: 0 <= k < |idx| ==> 0 <= idx[k] < |pool|
    ensures RankedAids(pool, items).Ok?
    ensures |RankedAids(pool, items).value| == |items|
    ensures forall k :: 0 <= k < |items| ==> RankedAids(pool, items).value[k] == pool[idx[k]].aid
  {
    forall k | 0 <= k < |items| ensures RankedAid(pool, items[k]) == Ok(pool[idx[k]].aid) {
      assert NamesCandidate(items[k], idx[k]);
    }
  }

  /** One item whose index lies outside `[-len(pool), len(pool))` makes the
      whole comprehension raise, whatever the other items are. */
  lemma RankedAidsOutOfRange(pool: seq<Hit>, items: seq<Value>, j: nat, i: int)
    requires j < |items|
    requires items[j].Object? && "index" in items[j].fields && items[j].fields["index"] == Int(i)
    requires i < -|pool| || |pool| <= i
    ensures RankedAids(pool, items).Err?
  {
    assert RankedAid(pool, items[j]).Err?;
  }

  /** A negative index does not raise: `-1` names the last candidate. */
  lemma RankedAidNegative(pool: seq<Hit>, item: Value, i: int)
    requires item.Object? && "index" in item.fields && item.fields["index"] == Int(i)
    requires "relevance_score" in item.fields
    requires -|pool| <= i < 0
    ensures RankedAid(pool, item) == Ok(pool[|pool| + i].aid)
  {
  }

  /** Worked example: candidates A, B, C and an answer naming index 2 then
      index 0 give C's `aid` then A's. */
  lemma RankedAidsExample(a: Hit, b: Hit, c: Hit, s1: Value, s2: Value)
    ensures RankedAids([a, b, c], [Object(map["index" := Int(2), "relevance_score" := s1]),
                                   Object(map["index" := Int(0), "relevance_score" := s2])])
            == Ok([c.aid, a.aid])
  {
    var items := [Object(map["index" := Int(2), "relevance_score" := s1]),
                  Object(map["index" := Int(0), "relevance_score" := s2])];
    RankedAidsInRange([a, b, c], items, [2, 0]);
    var r := RankedAids([a, b, c], items).value;
    assert r == [c.aid, a.aid];
  }
}

=== FILE: seqs.dfy ===
/** Flattening a list of lists, shared by several modules. */
module Seqs {
  import opened Outcome

  /** `[x for chunk in ss for x in chunk]`. */
  function Concat<T>(ss: seq<seq<T>>): seq<T> {
    if |ss| == 0 then [] else ss[0] + Concat(ss[1..])
  }

  lemma {:induction false} ConcatAppend<T>(a: seq<seq<T>>, b: seq<seq<T>>)
    ensures Concat(a + b) == Concat(a) + Concat(b)
  {
    if |a| == 0 {
      assert a + b == b;
    } else {
      assert (a + b)[1..] == a[1..] + b;
      ConcatAppend(a[1..], b);
    }
  }

  lemma ConcatSnoc<T>(ss: seq<seq<T>>, s: seq<T>)
    ensures Concat(ss + [s]) == Concat(ss) + s
  {
    ConcatAppend(ss, [s]);
    assert Concat([s]) == s + Concat([s][1..]);
    assert [s][1..] == [];
  }

  /** The total length of the pieces. */
  function SumLengths<T>(ss: seq<seq<T>>): nat {
    if |ss| == 0 then 0 else |ss[0]| + SumLengths(ss[1..])
  }

  lemma {:induction false} ConcatLength<T>(ss: seq<seq<T>>)
    ensures |Concat(ss)| == SumLengths(ss)
  {
    if |ss| > 0 {
      ConcatLength(ss[1..]);
    }
  }

  /** Element `j` of piece `d` sits in the concatenation right after the
      elements of the pieces before it. */
  lemma ConcatIndex<T>(ss: seq<seq<T>>, d: nat, j: nat)
    requires d < |ss| && j < |ss[d]|
    ensures |Concat(ss[..d])| + j < |Concat(ss)|
    ensures Concat(ss)[|Concat(ss[..d])| + j] == ss[d][j]
  {
    assert ss == ss[..d] + ss[d..];
    ConcatAppend(ss[..d], ss[d..]);
    assert ss[d..][1..] == ss[d + 1..];
    assert Concat(ss[d..]) == ss[d] + Concat(ss[d + 1..]);
  }

  lemma AppendAssoc<T>(x: seq<T>, y: seq<T>, z: seq<T>)
    ensures x + (y + z) == (x + y) + z
  {
  }

  /** A sequence that agrees with `x` and then with `y` is `x + y`. */
  lemma ElementwiseAppend<T>(l: seq<T>, x: seq<T>, y: seq<T>)
    requires |l| == |x| + |y|
    requires forall i :: 0 <= i < |x| ==> l[i] == x[i]
    requires forall i :: 0 <= i < |y| ==> l[|x| + i] == y[i]
    ensures l == x + y
  {
    forall i | 0 <= i < |l| ensures l[i] == (x + y)[i] {
      if i >= |x| {
        assert l[|x| + (i - |x|)] == y[i - |x|];
      }
    }
  }

  /** `[f(x) for x in xs]` where `f` may raise: the first failure is the
      outcome, and otherwise every element is mapped in order. */
  function MapAll<A, B, E>(f: A -> Result<B, E>, xs: seq<A>): (r: Result<seq<B>, E>)
    ensures r.Ok? <==> forall i :: 0 <= i < |xs| ==> f(xs[i]).Ok?
    ensures r.Ok? ==> |r.value| == |xs|
    ensures r.Ok? ==> forall i :: 0 <= i < |xs| ==> r.value[i] == f(xs[i]).value
  {
    if |xs| == 0 then Ok([])
    else
      var y :- f(xs[0]);
      var rest :- MapAll(f, xs[1..]);
      assert forall i :: 1 <= i < |xs| ==> xs[i] == xs[1..][i - 1];
      Ok([y] + rest)
  }

  /** Mapping `a + b` maps `a` and then `b`. */
  lemma MapAllAppend<A, B, E>(f: A -> Result<B, E>, a: seq<A>, b: seq<A>)
    requires MapAll(f, a).Ok? && MapAll(f, b).Ok?
    ensures MapAll(f, a + b) == Ok(MapAll(f, a).value + MapAll(f, b).value)
  {
    var c := a + b;
    assert forall i :: 0 <= i < |a| ==> c[i] == a[i];
    assert forall i :: 0 <= i < |b| ==> c[|a| + i] == b[i];
    var l := MapAll(f, c).value;
    var la := MapAll(f, a).value;
    var lb := MapAll(f, b).value;
    ElementwiseAppend(l, la, lb);
  }

  /** The first `k + 1` elements are the first `k` and then element `k`. */
  lemma TakeSnoc<T>(s: seq<T>, k: nat)
    requires k < |s|
    ensures s[..k + 1] == s[..k] + [s[k]]
  {
  }
}

/** Reading a sequence along a list of indices, and the fact that reading it
    along two permutations of the same indices gives the same multiset. */
module Picks {

  /** Every index in `idx` is a valid position of a sequence of length `n`. */
  ghost predicate Bounded(idx: seq<int>, n: int) {
    forall k :: 0 <= k < |idx| ==> 0 <= idx[k] < n
  }

  /** `[s[i] for i in idx]`. */
  function Pick<T>(s: seq<T>, idx: seq<int>): seq<T>
    requires Bounded(idx, |s|)
  {
    if |idx| == 0 then [] else [s[idx[0]]] + Pick(s, idx[1..])
  }

  lemma {:induction false} PickAt<T>(s: seq<T>, idx: seq<int>)
    requires Bounded(idx, |s|)
    ensures |Pick(s, idx)| == |idx|
    ensures forall k :: 0 <= k < |idx| ==> Pick(s, idx)[k] == s[idx[k]]
  {
    if |idx| > 0 {
      PickAt(s, idx[1..]);
    }
  }

  /** `list(range(n))`. */
  function Range(n: nat): (r: seq<int>)
    ensures |r| == n
    ensures forall k :: 0 <= k < n ==> r[k] == k
  {
    seq(n, k requires 0 <= k < n => k)
  }

  lemma PickRange<T>(s: seq<T>)
    ensures Bounded(Range(|s|), |s|)
    ensures Pick(s, Range(|s|)) == s
  {
    PickAt(s, Range(|s|));
  }

  lemma {:induction false} PickAppend<T>(s: seq<T>, a: seq<int>, b: seq<int>)
    requires Bounded(a, |s|) && Bounded(b, |s|)
    ensures Bounded(a + b, |s|)
    ensures Pick(s, a + b) == Pick(s, a) + Pick(s, b)
  {
    if |a| == 0 {
      assert a + b == b;
    } else {
      assert (a + b)[1..] == a[1..] + b;
      PickAppend(s, a[1..], b);
    }
  }

  lemma SplitAt<T>(ys: seq<T>, j: nat)
    requires j < |ys|
    ensures ys == ys[..j] + ([ys[j]] + ys[j + 1..])
  {
  }

  /** Taking one index out of the index sequence takes its element out of
      the multiset of picked elements. */
  lemma PickRemove<T>(s: seq<T>, ys: seq<int>, j: nat)
    requires Bounded(ys, |s|)
    requires j < |ys|
    ensures Bounded(ys[..j] + ys[j + 1..], |s|)
    ensures multiset(Pick(s, ys)) == multiset(Pick(s, ys[..j] + ys[j + 1..])) + multiset{s[ys[j]]}
  {
    var pre, post := ys[..j], ys[j + 1..];
    SplitAt(ys, j);
    PickAppend(s, pre, [ys[j]] + post);
    assert ([ys[j]] + post)[1..] == post;
    PickAppend(s, pre, post);
  }

  lemma RemoveAt(ys: seq<int>, j: nat)
    requires j < |ys|
    ensures multiset(ys[..j] + ys[j + 1..]) == multiset(ys) - multiset{ys[j]}
  {
    assert ys == ys[..j] + [ys[j]] + ys[j + 1..];
    assert multiset(ys) == multiset(ys[..j]) + multiset{ys[j]} + multiset(ys[j + 1..]);
  }

  /** The first index of `xs` occurs somewhere in its permutation `ys`;
      removing both occurrences leaves permutations of each other. */
  lemma MatchFirst(xs: seq<int>, ys: seq<int>) returns (j: nat)
    requires |xs| > 0
    requires multiset(xs) == multiset(ys)
    ensures j < |ys| && ys[j] == xs[0]
    ensures multiset(xs[1..]) == multiset(ys[..j] + ys[j + 1..])
  {
    assert xs[0] in multiset(ys);
    j :| 0 <= j < |ys| && ys[j] == xs[0];
    RemoveAt(ys, j);
    RemoveAt(xs, 0);
    assert xs[..0] + xs[1..] == xs[1..];
  }

  /** Reading a sequence along any reordering of its indices yields the same
      elements with the same multiplicities. */
  lemma {:induction false} PickPermutation<T>(s: seq<T>, xs: seq<int>, ys: seq<int>)
    requires Bounded(xs, |s|) && Bounded(ys, |s|)
    requires multiset(xs) == multiset(ys)
    ensures multiset(Pick(s, xs)) == multiset(Pick(s, ys))
  {
    if |xs| == 0 {
      assert |ys| == 0 by {
        assert |multiset(ys)| == |multiset(xs)| == 0;
      }
    } else {
      var j := MatchFirst(xs, ys);
      PickRemove(s, ys, j);
      PickPermutation(s, xs[1..], ys[..j] + ys[j + 1..]);
      assert Pick(s, xs) == [s[xs[0]]] + Pick(s, xs[1..]);
    }
  }
}
